=== FILE: README.md ===
# CEmethod in Dafny

This is a model of the sequential core of CEmethod. CEmethod is a noisy cross-entropy optimiser that learns weights for a Tetris-playing agent. The model has four parts:

- **The bit-packed Tetris board** (`Playfields`, `BoardMetrics`). Each column is a Java `int` in which bit r is row r. Alongside the columns the board keeps the column heights and the filled-cell count. The model covers dropping a piece, clearing full rows and the four read-only board metrics: well sum, column transitions, row transitions and hole sums.
- **The three feature sets** (`SymmetricBertsekas`, `SymmetricMixed`, `SmallFeatures`). Each is a pure function from a board to a feature vector written into the caller's output buffer.
- **The parameter codec of the Tetris driver** (`ParameterCodec`, with the driver's board sizes in `TetrisDriver`). Each weight is written as the signed decimal form of its raw 64-bit pattern. The tokens are joined with single spaces and parsed back from the command line.
- **The arithmetic of the solver** (`CrossEntropy`, `IsotropicNormal`, `Points`, `RealStats`), over the reals. This covers:
  - Welford's online mean and variance in `evaluateParameters`;
  - the index-tagged fan-in of worker results;
  - the slots kept between iterations;
  - the clamped noise schedule and the iteration bound;
  - `l2` and `scoreDeviation`;
  - fitting the isotropic normal distribution;
  - the descending-performance order of candidate points.

Modelling choices:

- **Java `int` as bits.** A Java `int` is a `Word`: 32 booleans, least significant first, index 31 the sign bit. Java's bitwise operators (`&`, `|`, `^`, `~`, `<<` and the arithmetic `>>`) are defined position by position. `LowMaskValue` connects the mask the model uses with Java's two's-complement value of `(1 << i) - 1`.
- **Doubles as 64-bit patterns.** A `double` the codec handles is its 64-bit pattern, `Bits64`: the unsigned value of the pattern, below 2^64. `doubleToRawLongBits` and `longBitsToDouble` become the two's-complement reading and writing of that pattern.
- **Statistics over the reals.** Every statistic is over `real`. A Java division that would produce NaN (0/0 with an empty list, no samples or no dimensions) is an error value: `None` or `Failure`.
- **Mutation as returned values.** A method that mutates the board returns a new immutable `Playfield`.
- **Arrays behind references.** The normal distribution's mean array lives in a `Heap` from references to contents. This is what lets the model show the difference between the constructor's aliasing and `getMeans`'s copy.
- **Grid and piece bookkeeping.** `Grid` and `OrientedPiece` are not part of this model. Their bookkeeping is stated as the predicates `Valid` and `ValidPiece`:
  - each stored height is the column's highest filled row plus one;
  - the filled-cell count is the number of set bits;
  - for a piece, `heightBelow` is the lowest filled row of each column and `height` is the tallest column.
- **Column transitions.** The expression `x & ~x << 1 | ~x & x << 1` of `coltrans` never sets bit 0. `ColumnTransitions` therefore counts the changes between neighbouring rows only. It is `bitCount(x ^ x << 1)` less the bottom bit, which the XOR form would count as a change from the floor.

## Model

| member | source | states |
|---|---|---|
| Word32.LowMaskValue | cemethod/tetris/Playfield.java:111 | the word with ones exactly below position i is Java's `(1 << i) - 1`, wrap-around included |
| Playfields.NewPlayfield | cemethod/tetris/Playfield.java:17-24 | a board taller than 30 rows is refused; otherwise the board is empty, valid and not terminated |
| Playfields.SetTo | cemethod/tetris/Playfield.java:29-35 | copying a board copies its columns, heights, count and terminated flag, and keeps validity |
| Playfields.PlacementHeight | cemethod/tetris/Playfield.java:67-70 | the placement height is the least value ≥ 0 at or above every `heightOf[col+w] - heightBelow[w]`, and equals 0 or one of them |
| Playfields.PlaceWithoutClearing | cemethod/tetris/Playfield.java:65-77 | a piece outside the board is refused. Otherwise each covered column becomes its old bits OR the piece column shifted up by the placement height, its height becomes placement height plus the piece column's height, and the count grows by the piece's cells. Other columns are unchanged, and the result is the placement height plus the piece height |
| Playfields.PlaceWithoutClearingValid | cemethod/tetris/Playfield.java:65-77 | dropping a piece that fits keeps the heights and the count in agreement with the columns |
| Playfields.FullRows | cemethod/tetris/Playfield.java:84-88 | bit i of the AND of all columns is set exactly when row i is full |
| Playfields.RemoveBit | cemethod/tetris/Playfield.java:111-114 | bits below i are kept, bit i is dropped and the bits above move down one place |
| Playfields.RemoveRow | cemethod/tetris/Playfield.java:105-121 | every column loses row i and the rows above it move down; the count falls by the width and the board stays valid |
| Playfields.RemoveFull | cemethod/tetris/Playfield.java:83-103 | each column becomes its non-full rows packed downwards; the number returned is the number of full rows; afterwards no row is full |
| Playfields.Place | cemethod/tetris/Playfield.java:50-60 | place is drop then clear. The flag is set exactly when it was set before or the drop's top less the rows cleared exceeds the height, so a set flag is never cleared |
| BoardMetrics.ComputeWellSum | cemethod/tetris/Playfield.java:129-140 | the `wellsum` loop with its right-wall term the right way round computes the sum of all well depths deeper than one row |
| BoardMetrics.WellSumNonnegative | cemethod/tetris/Playfield.java:129-140 | `wellsum` as written and the corrected well sum are both never negative, and both are 0 on a flat board |
| BoardMetrics.WellSumMirror | cemethod/tetris/Playfield.java:129-140 | the corrected well sum of a board equals that of its mirror image |
| BoardMetrics.WellSumAsWritten | cemethod/tetris/Playfield.java:129-140 | `wellsum` as written differs from the corrected well sum only in its right-wall term, which measures the wall column against its neighbour the wrong way round |
| BoardMetrics.ComputeWellSumAsWritten | cemethod/tetris/Playfield.java:129-140 | the `wellsum` loop exactly as written, right-wall term included, computes the as-written well sum |
| BoardMetrics.WellSumAsWrittenMissesRightWell | cemethod/tetris/Playfield.java:137-138 | as written, a 3-deep well at the right wall counts 0, while the same well at the left wall counts 3 |
| BoardMetrics.ColumnTransitions | cemethod/tetris/Playfield.java:142-150 | the column term counts the row boundaries where the column changes between filled and empty; with the bottom bit added it is `bitCount(x ^ x << 1)` |
| BoardMetrics.ColTrans | cemethod/tetris/Playfield.java:142-150 | `coltrans` is never negative and at most 31 per column, one per boundary between neighbouring rows of a 32-row column |
| BoardMetrics.RowTrans | cemethod/tetris/Playfield.java:152-158 | `rowtrans` is never negative, 0 for fewer than two columns, and at most 32 per pair of neighbouring columns |
| BoardMetrics.HoleSums | cemethod/tetris/Playfield.java:160-174 | `holeSums` is never negative |
| BoardMetrics.ColumnHoleLoop | cemethod/tetris/Playfield.java:163-171 | the inner `holeSums` loop adds, for each filled cell, the empty cells below it, and adds nothing for a column with the sign bit set |
| BoardMetrics.ComputeHoleSums | cemethod/tetris/Playfield.java:160-174 | `holeSums` is the per-column hole count summed over the columns |
| BoardMetrics.EmptyBoardMetrics | cemethod/tetris/Playfield.java:123-174 | column transitions, row transitions, hole sums and the well sum, as written and corrected, are all 0 on an empty board |
| BoardMetrics.ColumnMetricsMirror | cemethod/tetris/Playfield.java:142-174 | column transitions and hole sums do not change when the columns are read right to left |
| BoardMetrics.RowTransMirror | cemethod/tetris/Playfield.java:152-158 | row transitions do not change when the columns are read right to left |
| SymmetricBertsekas.PairLoop | cemethod/tetris/SymmetricBertsekasFeatures.java:24-32 | the first loop writes column plus mirror column into the first half, leaves the total height less the count at position width, and returns the tallest column among the pairs |
| SymmetricBertsekas.StepLoop | cemethod/tetris/SymmetricBertsekasFeatures.java:33-37 | the second loop writes the height step plus the mirrored step after the first half and touches nothing else |
| SymmetricBertsekas.Extract | cemethod/tetris/SymmetricBertsekasFeatures.java:20-40 | `extract` leaves in every position what the per-index feature definition says, and the buffer's old value elsewhere |
| SymmetricBertsekas.EvenWidthAggregate | cemethod/tetris/SymmetricBertsekasFeatures.java:24-31 | on an even-width board position width holds the total height less the filled cells |
| SymmetricBertsekas.EvenWidthMaximum | cemethod/tetris/SymmetricBertsekasFeatures.java:29-39 | on an even-width board position width+1 holds the tallest column's height |
| SymmetricBertsekas.MirrorInvariant | cemethod/tetris/SymmetricBertsekasFeatures.java:4-39 | on an even-width board, reversing the heights leaves the whole feature vector unchanged |
| SymmetricBertsekas.Coverage | cemethod/tetris/SymmetricBertsekasFeatures.java:12-39 | on an even-width board every position below `dimension`, width+2, is written; on an odd-width board position width-2 keeps the buffer's old value; nothing from `dimension` on is written |
| SymmetricBertsekas.Nonnegative | cemethod/tetris/SymmetricBertsekasFeatures.java:33-39 | every step feature and the maximum is never negative; only on an odd-width board is position width-2 exempt, since it keeps the buffer's old value |
| SymmetricMixed.Extract | cemethod/tetris/SymmetricMixedFeatures.java:31-36 | the first width+2 positions are the symmetric Bertsekas features. Then come column transitions, row transitions and `wellsum` as written. Nothing after position width+4 is touched |
| SymmetricMixed.ExtractIntended | cemethod/tetris/SymmetricMixedFeatures.java:31-36 | as `extract`, with the well sum's right-wall term the right way round |
| SymmetricMixed.Coverage | cemethod/tetris/SymmetricMixedFeatures.java:23-36 | on an even-width board every position below `dimension` is written; on an odd-width board position width-2 keeps the buffer's old value; nothing from `dimension` on is written |
| SymmetricMixed.IntendedMirrorInvariant | cemethod/tetris/SymmetricMixedFeatures.java:31-36 | on a valid even-width board the mirror image has the same intended features |
| SymmetricMixed.AsWrittenNotMirrorInvariant | cemethod/tetris/SymmetricMixedFeatures.java:35 | as written, heights [0,3] and their mirror [3,0] get well-sum entries 6 and 0, while the intended entries agree at 3 |
| SmallFeatures.Extract | cemethod/tetris/SmallFeatures.java:8-32 | `extract` as written. Position 0 is total height less filled cells and position 1 is total height. Position 2 is the last column's height or 0, because the maximum is reset on every turn. Position 3 is the last height step, because it is overwritten on every turn. Positions 4-7 are hole sums, column transitions, row transitions and `wellsum` as written. Nothing from `dimension`, 8, on is touched |
| SmallFeatures.AsWrittenNotMirrorInvariant | cemethod/tetris/SmallFeatures.java:16-27 | as written, the boards [4,0] and [0,4] get different features, while the corrected features agree on them |
| SmallFeatures.ExtractIntended | cemethod/tetris/SmallFeatures.java:13-32 | the corrected extraction: the maximum height at position 2, the wall-to-wall bumpiness at position 3, the corrected well sum at position 7, and the other positions as written |
| SmallFeatures.IntendedMirrorInvariant | cemethod/tetris/SmallFeatures.java:13-27 | the corrected height features of a board and of its mirror image agree |
| SmallFeatures.IntendedBumpinessWithWalls | cemethod/tetris/SmallFeatures.java:24-27 | the corrected position 3 is the sum of the height steps of the board framed by two empty walls |
| SmallFeatures.IntendedMaximum | cemethod/tetris/SmallFeatures.java:16-23 | the corrected position 2 is at least every column's height and equals one of them |
| ParameterCodec.RawLongBits | cemethod/tetris/Main.java:97 | the signed reading of a 64-bit pattern lies in the `long` range and is negative exactly when the top bit is set |
| ParameterCodec.RawBitsRoundTrip | cemethod/tetris/Main.java:63 | `longBitsToDouble` after `doubleToRawLongBits` gives back the identical pattern |
| ParameterCodec.LongBitsRoundTrip | cemethod/tetris/Main.java:63 | `doubleToRawLongBits` after `longBitsToDouble` gives back the identical `long` |
| ParameterCodec.DigitsRoundTrip | cemethod/tetris/Main.java:97 | reading back the decimal digits of a number gives the number |
| ParameterCodec.LongToString | cemethod/tetris/Main.java:97 | the decimal form of a `long` is non-empty, has no space, and starts with '-' exactly for negative values |
| ParameterCodec.ParseLong | cemethod/tetris/Main.java:63 | `Long.parseLong` accepts only text holding a digit and only values in the `long` range |
| ParameterCodec.ParseLongToString | cemethod/tetris/Main.java:63 | parsing the decimal form of any `long` gives it back |
| ParameterCodec.ParseLongRejects | cemethod/tetris/Main.java:61-67 | text without a digit is rejected |
| ParameterCodec.ParseLongExamples | cemethod/tetris/Main.java:63 | a leading '+' and leading zeros are accepted; a lone sign or a trailing space is rejected |
| ParameterCodec.ParseToken | cemethod/tetris/Main.java:61-67 | a token gives a weight exactly when `Long.parseLong` accepts it |
| ParameterCodec.TokenRoundTrip | cemethod/tetris/Main.java:63 | decoding the token written for a weight gives back the identical 64-bit pattern |
| ParameterCodec.WordsJoin | cemethod/tetris/Main.java:94-103 | splitting the joined tokens at spaces gives back the tokens |
| ParameterCodec.ParametersToString | cemethod/tetris/Main.java:94-103 | the output is one token per weight joined by single spaces, empty exactly for no weights, with no leading or trailing space, and splits back into the tokens |
| ParameterCodec.JoinEnds | cemethod/tetris/Main.java:94-103 | a non-empty join of space-free tokens neither starts nor ends with a space |
| ParameterCodec.ParseParameters | cemethod/tetris/Main.java:60-68 | the weights are read exactly when every token parses, one weight per token |
| ParameterCodec.MainArguments | cemethod/tetris/Main.java:55-80 | no arguments means training. "test" or "show" proceeds exactly when there are dimension+1 arguments, all weight tokens parse and the first argument is that verb. Anything else is unknown arguments |
| ParameterCodec.PrintedCommandLineRoundTrip | cemethod/tetris/Main.java:89-90 | the command line printed after training, given back with "test" or "show", decodes to the same weights, provided the number of weights equals the dimension the arguments are checked against |
| TetrisDriver.FeatureCount | cemethod/tetris/Tetris.java:53-55 | the mixed feature set on a board of width w has w+5 features, whatever the board's height |
| TetrisDriver.PrintedLineRefused | cemethod/tetris/Main.java:39-56 | as written, the printed line of the 10 weights trained from the 5-wide board's distribution is refused as unknown arguments, since the 10-wide evaluation board asks for 15 |
| TetrisDriver.PrintedLineAccepted | cemethod/tetris/Main.java:39-90 | with the initial distribution sized from the 10-wide board, the printed line tests or shows exactly the trained weights |
| Points.NewPoint | cemethod/Point.java:21-23 | a new point holds the contents of the array it was made from, with performance 0 |
| Points.PointOwnsItsVector | cemethod/Point.java:21-23 | a point made from an array keeps the array's contents from before a later write, and after a write that changes the array it no longer agrees with it |
| Points.CompareReals | cemethod/Point.java:30 | `Double.compareTo` on non-NaN values is negative, zero or positive as the first is below, equal to or above the second |
| Points.CompareTo | cemethod/Point.java:29-31 | `compareTo` is negative exactly when this point performs better, zero exactly on equal performance |
| Points.CompareReflexive | cemethod/Point.java:29-31 | a point compares equal to itself |
| Points.CompareAntisymmetric | cemethod/Point.java:29-31 | swapping the operands negates the comparison |
| Points.CompareTransitive | cemethod/Point.java:29-31 | the order is transitive |
| Points.CompareTotal | cemethod/Point.java:29-31 | any two points are ordered one way or the other |
| Points.SortedElitesAreBest | cemethod/CESolver.java:223-225 | after an ascending sort by `compareTo` no point after the first e performs better than any of the first e |
| RealStats.WelfordStep | cemethod/CESolver.java:256-262 | one Welford update, taking the n-th value x, moves the mean by `delta = x - mean` over n and grows the squared deviations by `delta` times the distance of x from the new mean. From the mean and squared deviations of the values so far, it gives exactly the mean and squared deviations of the values with x appended |
| RealStats.StatisticsPermutation | cemethod/CESolver.java:256-263 | the mean and the sample variance do not depend on the order of the values |
| IsotropicNormal.New | cemethod/NormalDistribution.java:36-41 | the constructor keeps the caller's array itself, and the dimension is its length |
| IsotropicNormal.Accumulate | cemethod/NormalDistribution.java:46-53 | the first loops leave each mean the average of that component over the samples, or 0 with no samples |
| IsotropicNormal.PooledDeviation | cemethod/NormalDistribution.java:54-60 | the second loop adds the squared distances of every sample's components from the means |
| IsotropicNormal.FitTo | cemethod/NormalDistribution.java:44-62 | the mean array, the caller's by aliasing, becomes the componentwise average and nothing else on the heap changes. The variance is the pooled squared distance over samples over dimensions plus the noise, at least the noise. It is not a number exactly when there are no samples or no dimensions |
| IsotropicNormal.AveragesOfIdentical | cemethod/NormalDistribution.java:46-53 | identical samples average to the sample itself |
| IsotropicNormal.FitToIdentical | cemethod/NormalDistribution.java:54-61 | fitting to copies of one vector gives that vector as means and exactly the noise as variance |
| IsotropicNormal.GetMeans | cemethod/NormalDistribution.java:70-72 | `getMeans` returns a new array of length dim with the means' contents, leaving every existing array as it was |
| IsotropicNormal.CopyIsIndependent | cemethod/NormalDistribution.java:70-72 | writing to the copy leaves the distribution's means unchanged |
| IsotropicNormal.Sample | cemethod/NormalDistribution.java:75-81 | a sample has exactly dim components, and a zero draw in a component gives the mean there |
| CrossEntropy.EnqueueTrials | cemethod/CESolver.java:252-254 | one task per trial goes out, task i carrying the vector and index i |
| CrossEntropy.EvaluateParameters | cemethod/CESolver.java:246-264 | fewer than two trials is refused before anything is enqueued. Otherwise exactly `trials` tasks go out and `trials` results are taken, and the result is the mean and the two-pass sample variance of the results |
| CrossEntropy.Welford | cemethod/CESolver.java:256-262 | the online loop ends with the mean of the values taken and their squared deviations from it |
| CrossEntropy.WelfordTurn | cemethod/CESolver.java:256-262 | each turn keeps the invariant: after i results, the mean and the squared deviations of those i values |
| CrossEntropy.EvaluationArrivalOrder | cemethod/CESolver.java:256-263 | the mean and variance returned do not depend on the order the results arrive in |
| CrossEntropy.EvaluationOfConstant | cemethod/CESolver.java:256-263 | trials that all score c give mean c and variance 0 |
| CrossEntropy.FanIn | cemethod/CESolver.java:218-221 | the fan-in writes only performances and leaves every slot's vector alone |
| CrossEntropy.FanInSlot | cemethod/CESolver.java:218-221 | with distinct indices, the slot a result names ends with that result's performance |
| CrossEntropy.FanInUntouched | cemethod/CESolver.java:218-221 | a slot no result names keeps its point |
| CrossEntropy.FanInOrderIndependent | cemethod/CESolver.java:215-221 | with distinct indices, any arrival order of the same results gives the same list |
| CrossEntropy.FanInCoversAll | cemethod/CESolver.java:215-221 | when the indices taken are a permutation of the slots, every slot gets the performance of the one result naming it |
| CrossEntropy.SaveCount | cemethod/CESolver.java:202 | `elites / 2` truncates toward zero |
| CrossEntropy.SaveWithinElites | cemethod/CESolver.java:202 | for non-negative elites the kept count lies between 0 and elites |
| CrossEntropy.Resample | cemethod/CESolver.java:212-214 | slots below save keep their point and slots from save on get a new point from the next draw with performance 0; a negative save fails |
| CrossEntropy.KeptAreBest | cemethod/CESolver.java:212-225 | after the sort, the kept slots hold points no replaced point outperformed |
| CrossEntropy.NoiseAt | cemethod/CESolver.java:224-227 | the noise given to the fit is the linear schedule when positive and 0 otherwise |
| CrossEntropy.NoiseNonIncreasing | cemethod/CESolver.java:224-227 | with a non-positive step the noise never grows from one iteration to a later one |
| CrossEntropy.TetrisSchedule | cemethod/tetris/Main.java:33-34 | with the Tetris driver's 8.0 and -0.1 the noise is positive through iteration 79 and 0 from iteration 80 on |
| CrossEntropy.IterationCount | cemethod/CESolver.java:211 | the loop runs at most maxIterations times, only while the average variance is above the minimum, and stops early only at a variance at or below it |
| CrossEntropy.MeanSquaredDistance | cemethod/CESolver.java:292-298 | `l2` under its root is the mean squared difference, never negative, and undefined for an empty vector |
| CrossEntropy.MeanSquaredDistanceProperties | cemethod/CESolver.java:292-298 | the distance of a vector from itself is 0, and the distance reads the same both ways |
| CrossEntropy.TotalScore | cemethod/CESolver.java:268-270 | the first loop adds up the performances |
| CrossEntropy.SquaredDeviations | cemethod/CESolver.java:273-275 | the second loop adds up the squared deviations from the mean |
| CrossEntropy.ScoreDeviation | cemethod/CESolver.java:266-277 | `scoreDeviation` under its root is the squared deviations from the mean over the count, never negative, and undefined for an empty list |
| CrossEntropy.ScoreDeviationOfEqualScores | cemethod/CESolver.java:266-277 | equal scores have no spread |
| CrossEntropy.ScoreDeviationOrder | cemethod/CESolver.java:266-277 | the spread does not depend on the order of the list |

## Left out

- Worker threads, the task and result queues, interrupts and shutdown are left out. Tasks put on the queue are a returned sequence, and results are a sequence in the order taken. A queue that never delivers is outside the model: the callers supply enough results.
- `GeneralNormalDistribution` is left out: its sampling, fitting and `avgVar` rest on a matrix library that is not part of this model. `IterationCount` takes the average variances as a sequence.
- Random draws are left out: `nextGaussian` and the Mersenne Twister are parameters of `Sample` and `Resample`. `Math.sqrt` is left out: `l2` and `scoreDeviation` are modelled before their square root, and `sample` takes the square root of the variance as a parameter.
- IEEE-754 rounding, NaN and -0.0 are left out. All statistics are exact reals, a NaN result is an error value, and `Double.compareTo` is modelled on non-NaN values only.
- `Tetris.runTrial` and `fitness` are left out. They are a game simulation over `Piece`, `OrientedPiece` and `Grid`, which are not part of this model.
- `SwingPlayfield` (drawing and delays) is left out.
- Console output, timing and `print` are left out.
- `Function`, `CEProblem`, `Distribution` and `FeatureSet` are left out: they are interfaces with nothing to state.
- `getVar` is left out as a member: it returns the `variance` field, whose value `FitTo` states.
- `Long.parseLong` also accepts non-ASCII Unicode digits. `ParseLong` accepts only '0'-'9'.
- Argument splitting by the shell is modelled as cutting at runs of space characters, so no argument is empty (`Words`); tabs, newlines and quoting are not modelled.
- The overall loop of `solve` is not composed into one member. Its steps are modelled one by one: resampling, tasks, fan-in, sort order, noise, fit and iteration bound. The library sort itself is left out: its output is assumed to be in `compareTo` order, as `SortedByCompare` states.
- Some files do not compile together as shown: `solve` reads `Point.par` while `Point` declares `vec`, both drivers call `solve` with an argument it does not take, and `setVerbosity` does not exist. Each file is modelled as written; where the code is evidently wrong, an `Intended` member gives the corrected reading beside it (see Findings).
- Playfields.PlaceWithoutClearing: requires, as does `Place`, that the placement height plus the piece height is at most 31, and `Valid` requires every column's sign bit to be clear. Beyond that, `<<` would silently lose rows and the clearing loop's arithmetic shift would misbehave.
- Playfields.PlacementHeight: models the first loop of `placeWithoutClearing` as a function: the loop is a plain maximum, stated by its ensures.
- BoardMetrics.ComputeWellSum: computes the corrected right-wall term; see Findings. `ComputeWellSumAsWritten` is the loop as written, and the `Extract` members of both feature sets use it.
- BoardMetrics.ComputeWellSum: requires at least two columns. On a narrower board `wellsum` throws `ArrayIndexOutOfBoundsException` reading `heightOf[1]`; that exception is not modelled. The same holds for BoardMetrics.ComputeWellSumAsWritten.
- SymmetricBertsekas.Extract: requires at least two columns. On a narrower board `extract` throws `ArrayIndexOutOfBoundsException`, at `output[width - 1]` for width 0 or at `heightOf[width/2 - 1]` for width 1; that exception is not modelled.
- SymmetricMixed.Extract: requires at least two columns, as `SymmetricBertsekas.Extract` and `wellsum` do; the exception a narrower board raises is not modelled.
- SmallFeatures.Extract: requires at least two columns. On a narrower board `extract` throws `ArrayIndexOutOfBoundsException` at `heightOf[0]` or in `wellsum`; that exception is not modelled.
- SmallFeatures.ExtractIntended: requires at least two columns, for the same reason as `SmallFeatures.Extract`.
- SymmetricMixed.ExtractIntended: requires at least two columns, for the same reason as `SymmetricMixed.Extract`.
- Playfields.NewPlayfield: width and height are natural numbers, so the negative arguments Java's `int` allows, and the exception `new int[width]` raises for a negative width, are not modelled.
- ParameterCodec.PrintedCommandLineRoundTrip: assumes the trained weights number as many as the dimension `main` checks the arguments against. The Tetris driver breaks that assumption; see Findings.
- IsotropicNormal.FitTo: requires every sample to have at least `dim` entries. A shorter sample makes `fitTo` throw `ArrayIndexOutOfBoundsException` at `sample[i]`; that exception is not modelled. The solver only fits elites drawn from the same distribution, which have exactly `dim` entries.
- CrossEntropy.MeanSquaredDistance: requires the second vector to be at least as long as the first. A shorter one makes `l2` throw `ArrayIndexOutOfBoundsException` at `b[i]`; that exception is not modelled. The solver only compares two `getMeans` copies of the same distribution.
- SymmetricBertsekas.Extract: requires the output buffer to hold `dimension` entries. A shorter buffer makes `extract` throw `ArrayIndexOutOfBoundsException`; that exception is not modelled. `Tetris` allocates the buffer as `new int[dimension()]` for its own board.
- SymmetricMixed.Extract: requires an output buffer of `dimension` entries, for the same reason as `SymmetricBertsekas.Extract`; the same holds for SymmetricMixed.ExtractIntended.
- SmallFeatures.Extract: requires an output buffer of `dimension` entries, for the same reason as `SymmetricBertsekas.Extract`; the same holds for SmallFeatures.ExtractIntended.
- CrossEntropy.IterationCount: counts with an unbounded integer. Java's `int` counter would wrap to `Integer.MIN_VALUE` after `Integer.MAX_VALUE`, so with `maxIterations == Integer.MAX_VALUE` the Java loop never stops on the bound; the model's bound of at most `maxIterations` iterations does not cover that case.
- BoardMetrics.WellSumNonnegative: states 0 for a flat board in one direction only, for both sums; a zero well sum does not imply a flat board.
- CrossEntropy.EvaluationOfConstant: states one direction only, equal scores give variance 0; the converse is not proved.
- CrossEntropy.ScoreDeviationOfEqualScores: states one direction only, equal scores give spread 0; the converse is not proved.
- CrossEntropy.MeanSquaredDistanceProperties: states one direction only, equal vectors are at distance 0; the converse is not proved.
- CrossEntropy.FanInOrderIndependent: requires distinct indices in both orders; the solver's own tasks always carry distinct indices.
- CrossEntropy.Resample: a function over the whole list rather than a loop of `params.set` calls; the draws are consumed in slot order.

## Findings

| source | as written | input that shows it | evidently intended | confidence | as-written member | corrected member |
|---|---|---|---|---|---|---|
| cemethod/tetris/Playfield.java:137-138 | the right-wall well depth is `heightOf[width-1] - heightOf[width-2]`, the wall column minus its neighbour (`WellSumAsWritten`). Both `SymmetricMixedFeatures.extract` and `SmallFeatures.extract` store this value | heights [3,3,0]: a 3-deep well at the right wall counts 0, while its mirror [0,3,3] counts 3; in the mixed features heights [0,3] give 6 and [3,0] give 0 (`SymmetricMixed.AsWrittenNotMirrorInvariant`) | `heightOf[width-2] - heightOf[width-1]`, mirroring the left wall's `heightOf[1] - heightOf[0]` (`WellSum`, which is mirror-symmetric) | high, not executed | BoardMetrics.WellSumAsWrittenMissesRightWell | BoardMetrics.WellSumMirror |
| cemethod/tetris/Main.java:39 | the initial distribution is sized from `new Playfield(5, 10)`, 10 mixed features, while the boards played on and the argument check at line 56 are 10 wide, 15 features (`FeatureCount`) | any trained weights: the printed "test" line has 10 weight tokens, and `main` answers "Unknown arguments." because it expects 15 | the initial distribution sized from a board of the driver's width, so the printed line is accepted | high, not executed | TetrisDriver.PrintedLineRefused | TetrisDriver.PrintedLineAccepted |
| cemethod/tetris/SmallFeatures.java:16-27 | `maxh` is reset to 0 on every turn, and `output[3]` is overwritten rather than added to, so position 2 is the last column's height and position 3 the last height step (`HeightFeaturesAsWritten`) | heights [4,0] give [4,4,0,4] and [0,4] give [4,4,4,4] | position 2 the maximum height, position 3 the sum of the height steps starting from the two outer heights (`HeightFeatures`, which is mirror-symmetric) | medium, not executed | SmallFeatures.AsWrittenNotMirrorInvariant | SmallFeatures.IntendedMirrorInvariant |

=== FILE: codec.dfy ===
/**
 * The parameter tokens of the Tetris command line: each weight is written as
 * the signed decimal form of its raw 64-bit pattern, the tokens are joined by
 * single spaces, and the arguments `test` or `show` followed by one token per
 * feature are decoded back into weights.
 */
module ParameterCodec {
  import opened Wrappers

  /**
   * A `double` as its raw IEEE-754 bit pattern, the 64 bits read as an
   * unsigned number.
   */
  type Bits64 = x: int | 0 <= x < 0x1_0000_0000_0000_0000

  const Two63: int := 0x8000_0000_0000_0000
  const Two64: int := 0x1_0000_0000_0000_0000

  /** The range of a Java `long`. */
  predicate InLongRange(v: int) {
    -Two63 <= v < Two63
  }

  /** `Double.doubleToRawLongBits`: the pattern read as a two's-complement `long`. */
  function RawLongBits(d: Bits64): (v: int)
    ensures InLongRange(v)
    ensures v >= 0 <==> d < Two63
  {
    if d < Two63 then d else d - Two64
  }

  /** `Double.longBitsToDouble`: the `long`'s two's-complement pattern. */
  function LongBitsToDouble(v: int): Bits64
    requires InLongRange(v)
  {
    if v < 0 then v + Two64 else v
  }

  lemma {:induction false} RawBitsRoundTrip(d: Bits64)
    ensures LongBitsToDouble(RawLongBits(d)) == d
  {
  }

  lemma {:induction false} LongBitsRoundTrip(v: int)
    requires InLongRange(v)
    ensures RawLongBits(LongBitsToDouble(v)) == v
  {
  }

  // ---------------------------------------------------------------- decimal text

  predicate IsDigit(c: char) {
    '0' <= c <= '9'
  }

  function DigitChar(d: nat): (c: char)
    requires d < 10
    ensures IsDigit(c)
  {
    (48 + d) as char
  }

  function DigitValue(c: char): (d: nat)
    requires IsDigit(c)
    ensures d < 10
  {
    c as int - 48
  }

  predicate AllDigits(s: string) {
    forall i :: 0 <= i < |s| ==> IsDigit(s[i])
  }

  /** The decimal digits of n, most significant first, with no leading zero. */
  function Digits(n: nat): (s: string)
    ensures 1 <= |s| && AllDigits(s)
    ensures |s| > 1 ==> s[0] != '0'
  {
    if n < 10 then [DigitChar(n)] else Digits(n / 10) + [DigitChar(n % 10)]
  }

  /** The value of a string of decimal digits, most significant first. */
  function DigitsValue(s: string): nat
    requires AllDigits(s)
  {
    if |s| == 0 then 0 else 10 * DigitsValue(s[..|s| - 1]) + DigitValue(s[|s| - 1])
  }

  lemma {:induction false} DigitsRoundTrip(n: nat)
    ensures DigitsValue(Digits(n)) == n
    decreases n
  {
    if n >= 10 {
      var s := Digits(n);
      assert s[..|s| - 1] == Digits(n / 10);
      DigitsRoundTrip(n / 10);
    }
  }

  /** `Long.toString`: a minus sign for negative values, then the digits of the magnitude. */
  function LongToString(v: int): (s: string)
    ensures 1 <= |s| && ' ' !in s
    ensures s[0] == '-' <==> v < 0
  {
    if v < 0 then "-" + Digits(-v) else Digits(v)
  }

  /**
   * `Long.parseLong` in base 10: an optional `-` or `+`, then one or more
   * digits whose signed value lies in the `long` range. Anything else is the
   * NumberFormatException, here None.
   */
  function ParseLong(s: string): (r: Option<int>)
    ensures r.Some? ==> InLongRange(r.value)
    ensures r.Some? ==> exists i :: 0 <= i < |s| && IsDigit(s[i])
  {
    var negative := |s| > 0 && s[0] == '-';
    var body := if |s| > 0 && (s[0] == '-' || s[0] == '+') then s[1..] else s;
    if |body| == 0 || !AllDigits(body) then None
    else
      var magnitude: int := DigitsValue(body);
      var v := if negative then -magnitude else magnitude;
      if InLongRange(v) then
        assert IsDigit(s[|s| - 1]);
        Some(v)
      else None
  }

  /** Every `long` printed by `Long.toString` is read back by `Long.parseLong`. */
  lemma {:induction false} ParseLongToString(v: int)
    requires InLongRange(v)
    ensures ParseLong(LongToString(v)) == Some(v)
  {
    if v < 0 {
      DigitsRoundTrip(-v);
      assert ("-" + Digits(-v))[1..] == Digits(-v);
    } else {
      DigitsRoundTrip(v);
    }
  }

  /** Text without a digit, the empty token or a lone sign included, is rejected. */
  lemma {:induction false} ParseLongRejects(s: string)
    requires forall i :: 0 <= i < |s| ==> !IsDigit(s[i])
    ensures ParseLong(s) == None
  {
  }

  /** A leading `+` and leading zeros are accepted; a lone sign or a trailing space is not. */
  lemma {:induction false} ParseLongExamples()
    ensures ParseLong("+07") == Some(7)
    ensures ParseLong("-0") == Some(0)
    ensures ParseLong("-") == None && ParseLong("+") == None
    ensures ParseLong("1 ") == None
  {
    assert "+07"[1..] == "07" && "07"[..1] == "0" && "0"[..0] == "";
    assert DigitsValue("07") == 7;
    assert "-0"[1..] == "0";
    assert !IsDigit("1 "[1]);
  }

  // ---------------------------------------------------------------- tokens

  /** The token written for one weight. */
  function Token(d: Bits64): string {
    LongToString(RawLongBits(d))
  }

  /** The weight read back from one token, None when `Long.parseLong` rejects it. */
  function ParseToken(t: string): (r: Option<Bits64>)
    ensures r.Some? <==> ParseLong(t).Some?
  {
    match ParseLong(t)
    case None => None
    case Some(v) => Some(LongBitsToDouble(v))
  }

  /** Writing a weight and reading it back gives the identical bit pattern. */
  lemma {:induction false} TokenRoundTrip(d: Bits64)
    ensures ParseToken(Token(d)) == Some(d)
  {
    ParseLongToString(RawLongBits(d));
    RawBitsRoundTrip(d);
  }

  function Tokens(ps: seq<Bits64>): (ts: seq<string>)
    ensures |ts| == |ps|
    ensures forall i :: 0 <= i < |ps| ==> ts[i] == Token(ps[i])
  {
    seq(|ps|, i requires 0 <= i < |ps| => Token(ps[i]))
  }

  /** The tokens with one space between neighbours and none at either end. */
  function Join(ts: seq<string>): string {
    if |ts| == 0 then ""
    else if |ts| == 1 then ts[0]
    else ts[0] + " " + Join(ts[1..])
  }

  lemma {:induction false} JoinSnoc(ts: seq<string>, t: string)
    requires |ts| >= 1
    ensures Join(ts + [t]) == Join(ts) + " " + t
    decreases |ts|
  {
    if |ts| > 1 {
      assert (ts + [t])[1..] == ts[1..] + [t];
      JoinSnoc(ts[1..], t);
    }
  }

  /** Length of the leading run of non-space characters. */
  function WordLength(s: string): (n: nat)
    ensures n <= |s|
    ensures forall i :: 0 <= i < n ==> s[i] != ' '
    ensures n < |s| ==> s[n] == ' '
  {
    if |s| == 0 || s[0] == ' ' then 0 else 1 + WordLength(s[1..])
  }

  /** How a command line is cut into arguments: the maximal runs of non-space characters. */
  function Words(s: string): seq<string>
    decreases |s|
  {
    if |s| == 0 then []
    else if s[0] == ' ' then Words(s[1..])
    else [s[..WordLength(s)]] + Words(s[WordLength(s)..])
  }

  lemma {:induction false} WordLengthOf(t: string, rest: string)
    requires ' ' !in t
    requires |rest| == 0 || rest[0] == ' '
    ensures WordLength(t + rest) == |t|
    decreases |t|
  {
    if |t| == 0 {
      assert t + rest == rest;
    } else {
      assert t[0] in t;
      assert (t + rest)[1..] == t[1..] + rest;
      assert forall c :: c in t[1..] ==> c in t;
      WordLengthOf(t[1..], rest);
    }
  }

  lemma {:induction false} WordsOfToken(t: string, rest: string)
    requires 1 <= |t| && ' ' !in t
    requires |rest| == 0 || rest[0] == ' '
    ensures Words(t + rest) == [t] + Words(rest)
  {
    WordLengthOf(t, rest);
    assert (t + rest)[..|t|] == t;
    assert (t + rest)[|t|..] == rest;
  }

  /** Cutting the joined tokens apart again gives the tokens back. */
  lemma {:induction false} WordsJoin(ts: seq<string>)
    requires forall i :: 0 <= i < |ts| ==> 1 <= |ts[i]| && ' ' !in ts[i]
    ensures Words(Join(ts)) == ts
    decreases |ts|
  {
    if |ts| == 1 {
      WordsOfToken(ts[0], "");
      assert ts[0] + "" == ts[0];
    } else if |ts| > 1 {
      var rest := " " + Join(ts[1..]);
      assert ts[0] + " " + Join(ts[1..]) == ts[0] + rest;
      WordsOfToken(ts[0], rest);
      assert rest[1..] == Join(ts[1..]);
      WordsJoin(ts[1..]);
    }
  }

  /**
   * `parametersToString`: each weight's token, a space after every token but
   * the last.
   */
  method ParametersToString(p: seq<Bits64>) returns (s: string)
    ensures Words(s) == Tokens(p)
    ensures s == Join(Tokens(p))
    ensures |p| == 0 <==> s == ""
    ensures |s| > 0 ==> s[0] != ' ' && s[|s| - 1] != ' '
  {
    s := "";
    for i := 0 to |p|
      invariant s == Join(Tokens(p[..i])) + Separator(i, |p|)
    {
      var t := Token(p[i]);
      var next := s + t;
      if i + 1 < |p| {
        next := next + " ";
      }
      AppendToken(p, i, s, next);
      s := next;
    }
    assert p[..|p|] == p;
    assert s == Join(Tokens(p)) + "";
    assert s == Join(Tokens(p));
    WordsJoin(Tokens(p));
    assert Words(s) == Tokens(p);
    if |p| > 0 {
      JoinEnds(Tokens(p));
    }
  }

  /** The space that follows the first i tokens while more are to come. */
  function Separator(i: nat, n: nat): string {
    if 0 < i < n then " " else ""
  }

  /** One turn of the `parametersToString` loop. */
  lemma {:induction false} AppendToken(p: seq<Bits64>, i: nat, s: string, next: string)
    requires i < |p| && s == Join(Tokens(p[..i])) + Separator(i, |p|)
    requires next == s + Token(p[i]) + (if i + 1 < |p| then " " else "")
    ensures next == Join(Tokens(p[..i + 1])) + Separator(i + 1, |p|)
  {
    var t := Token(p[i]);
    assert Tokens(p[..i + 1]) == Tokens(p[..i]) + [t];
    if i > 0 {
      JoinSnoc(Tokens(p[..i]), t);
    } else {
      assert Tokens(p[..1]) == [t];
    }
  }

  lemma {:induction false} JoinEnds(ts: seq<string>)
    requires |ts| >= 1
    requires forall i :: 0 <= i < |ts| ==> 1 <= |ts[i]| && ' ' !in ts[i]
    ensures var s := Join(ts); |s| > 0 && s[0] != ' ' && s[|s| - 1] != ' '
    decreases |ts|
  {
    if |ts| > 1 {
      JoinEnds(ts[1..]);
      var s := Join(ts);
      assert s[0] == ts[0][0];
      assert s[|s| - 1] == Join(ts[1..])[|Join(ts[1..])| - 1];
    } else {
      assert ts[0][0] in ts[0];
      assert ts[0][|ts[0]| - 1] in ts[0];
    }
  }

  // ---------------------------------------------------------------- arguments

  /** What `main` does with its arguments. */
  datatype Command =
    | Train
    | Test(par: seq<Bits64>)
    | Show(par: seq<Bits64>)
    | UnknownArguments

  /** The weights of the parameter tokens, None as soon as one is rejected. */
  function ParseParameters(ts: seq<string>): (r: Option<seq<Bits64>>)
    ensures r.Some? <==> forall i :: 0 <= i < |ts| ==> ParseToken(ts[i]).Some?
    ensures r.Some? ==> |r.value| == |ts|
    ensures r.Some? ==> forall i :: 0 <= i < |ts| ==> Some(r.value[i]) == ParseToken(ts[i])
  {
    if |ts| == 0 then Some([])
    else match ParseToken(ts[0])
      case None => None
      case Some(d) =>
        var rest := ParseParameters(ts[1..]);
        assert forall i :: 1 <= i < |ts| ==> ts[i] == ts[1..][i - 1];
        if rest.None? then None else Some([d] + rest.value)
  }

  /**
   * The argument branch of `main` for a feature set of dimension `dim`: no
   * arguments trains; otherwise there must be exactly `dim` tokens after the
   * first argument, every token must parse, and only then is the first
   * argument looked at.
   */
  function MainArguments(args: seq<string>, dim: nat): (r: Command)
    ensures |args| == 0 <==> r == Train
    ensures (r.Test? || r.Show?) ==> |args| == dim + 1 && Some(r.par) == ParseParameters(args[1..])
    ensures r.Test? <==> |args| == dim + 1 && args[0] == "test" && ParseParameters(args[1..]).Some?
    ensures r.Show? <==> |args| == dim + 1 && args[0] == "show" && ParseParameters(args[1..]).Some?
  {
    if |args| == 0 then Train
    else if |args| != dim + 1 then UnknownArguments
    else match ParseParameters(args[1..])
      case None => UnknownArguments
      case Some(par) =>
        if args[0] == "test" then Test(par)
        else if args[0] == "show" then Show(par)
        else UnknownArguments
  }

  /**
   * The command line printed after training, given back to the program, tests
   * (or shows) exactly the trained weights.
   */
  lemma {:induction false} PrintedCommandLineRoundTrip(ps: seq<Bits64>, verb: string)
    requires verb == "test" || verb == "show"
    ensures var cmd := MainArguments([verb] + Words(Join(Tokens(ps))), |ps|);
      cmd == (if verb == "test" then Test(ps) else Show(ps))
  {
    var ts := Tokens(ps);
    WordsJoin(ts);
    var args := [verb] + ts;
    assert args[1..] == ts;
    var parsed := ParseParameters(ts);
    forall i | 0 <= i < |ts|
      ensures ParseToken(ts[i]) == Some(ps[i])
    {
      TokenRoundTrip(ps[i]);
    }
    assert parsed.value == ps;
  }
}

=== FILE: cross_entropy.dfy ===
/**
 * The sequential arithmetic of the noisy cross-entropy solver, over the
 * reals: the online mean and variance of repeated trials, the fan-in of
 * index-tagged results into the candidate list, the slots kept from one
 * iteration to the next, the clamped noise schedule, the iteration bound and
 * the two spread measures the solver reports. The worker threads and their
 * queues become sequences: what was put on the task queue, and the results in
 * the order they were taken.
 */
module CrossEntropy {
  import opened Wrappers
  import opened RealStats
  import opened Points

  /** A task on the queue: a parameter vector and the slot its result belongs to. */
  datatype Subproblem = Subproblem(par: seq<real>, index: int)

  /** A worker's answer: the performance measured and the slot it belongs to. */
  datatype Perf = Perf(performance: real, index: int)

  /** The mean of the trials and, despite its name, their sample variance. */
  datatype EvaluationResult = EvaluationResult(mean: real, standardDeviation: real)

  datatype SolverError =
    | TooFewTrials       // the IllegalArgumentException of `evaluateParameters`
    | IndexOutOfBounds   // `params.set` with a negative slot

  function Performances(results: seq<Perf>): (xs: seq<real>)
    ensures |xs| == |results|
    ensures forall k :: 0 <= k < |results| ==> xs[k] == results[k].performance
  {
    seq(|results|, k requires 0 <= k < |results| => results[k].performance)
  }

  // ---------------------------------------------------------------- evaluateParameters

  /** The tasks for evaluating one vector `trials` times. */
  method EnqueueTrials(v: seq<real>, trials: nat) returns (enqueued: seq<Subproblem>)
    ensures |enqueued| == trials
    ensures forall i :: 0 <= i < trials ==> enqueued[i] == Subproblem(v, i)
  {
    enqueued := [];
    for i := 0 to trials
      invariant |enqueued| == i
      invariant forall j :: 0 <= j < i ==> enqueued[j] == Subproblem(v, j)
    {
      enqueued := enqueued + [Subproblem(v, i)];
    }
  }

  /**
   * `evaluateParameters`: fewer than two trials is refused before any task is
   * enqueued. Otherwise `trials` tasks go out, `trials` results are taken,
   * and Welford's online update leaves the mean of the results and their
   * squared deviations from it, returned divided by trials-1: the sample
   * variance. `arrivals` are the results in the order the queue yields them.
   */
  method EvaluateParameters(v: seq<real>, trials: int, arrivals: seq<Perf>)
    returns (r: Result<EvaluationResult, SolverError>, enqueued: seq<Subproblem>, taken: nat)
    requires trials >= 2 ==> trials <= |arrivals|
    ensures r.Failure? <==> trials < 2
    ensures r.Failure? ==> r.error == TooFewTrials && enqueued == [] && taken == 0
    ensures r.Success? ==>
      && taken == trials == |enqueued|
      && (forall i :: 0 <= i < trials ==> enqueued[i] == Subproblem(v, i))
      && r.value.mean == Mean(Performances(arrivals[..trials]))
      && r.value.standardDeviation == SampleVariance(Performances(arrivals[..trials]))
  {
    if trials < 2 {
      return Failure(TooFewTrials), [], 0;
    }
    enqueued := EnqueueTrials(v, trials);
    var m, sq;
    m, sq, taken := Welford(arrivals, trials);
    r := Success(EvaluationResult(m, sq / ((trials - 1) as real)));
  }

  /**
   * The result loop of `evaluateParameters`: each value taken moves the
   * running mean by its distance over the count and adds its deviation
   * from the old mean times its deviation from the new one.
   */
  method Welford(arrivals: seq<Perf>, trials: nat) returns (m: real, s: real, taken: nat)
    requires trials <= |arrivals|
    ensures taken == trials
    ensures m == Mean(Performances(arrivals[..trials]))
    ensures s == SumSq(Performances(arrivals[..trials]), m)
  {
    ghost var xs := Performances(arrivals[..trials]);
    m := 0.0;
    s := 0.0;
    taken := 0;
    for i := 1 to trials + 1
      invariant taken == i - 1
      invariant m == Mean(xs[..i - 1]) && s == SumSq(xs[..i - 1], m)
    {
      var x := arrivals[taken].performance;
      taken := taken + 1;
      ghost var (m0, s0) := (m, s);
      var delta := x - m;
      m := m + delta / (i as real);
      s := s + delta * (x - m);
      WelfordTurn(xs, i, x, m0, s0, delta, m, s);
    }
    assert xs[..trials] == xs;
  }

  /** Turn i of the result loop, on the prefix of the i values taken by its end. */
  lemma {:induction false} WelfordTurn(xs: seq<real>, i: nat, x: real, m: real, s: real, delta: real, m': real, s': real)
    requires 1 <= i <= |xs| && x == xs[i - 1]
    requires m == Mean(xs[..i - 1]) && s == SumSq(xs[..i - 1], m)
    requires delta == x - m && m' == m + delta / (i as real) && s' == s + delta * (x - m')
    ensures m' == Mean(xs[..i]) && s' == SumSq(xs[..i], m')
  {
    var before := xs[..i - 1];
    assert |before| + 1 == i && xs[..i] == before + [x];
    WelfordStep(before, x, i, m, s, delta, m', s');
  }

  /** The evaluation does not depend on the order in which the results arrive. */
  lemma {:induction false} EvaluationArrivalOrder(a: seq<Perf>, b: seq<Perf>, trials: nat)
    requires 2 <= trials <= |a| && trials <= |b|
    requires multiset(Performances(a[..trials])) == multiset(Performances(b[..trials]))
    ensures Mean(Performances(a[..trials])) == Mean(Performances(b[..trials]))
    ensures SampleVariance(Performances(a[..trials])) == SampleVariance(Performances(b[..trials]))
  {
    StatisticsPermutation(Performances(a[..trials]), Performances(b[..trials]));
  }

  /** Trials that all score c evaluate to mean c and variance 0. */
  lemma {:induction false} EvaluationOfConstant(xs: seq<real>, c: real)
    requires |xs| >= 2 && forall k :: 0 <= k < |xs| ==> xs[k] == c
    ensures Mean(xs) == c && SampleVariance(xs) == 0.0
  {
    ConstantMean(xs, c);
    SumSqConstant(xs, c);
  }

  // ---------------------------------------------------------------- fan-in

  predicate InRange(results: seq<Perf>, n: nat) {
    forall k :: 0 <= k < |results| ==> 0 <= results[k].index < n
  }

  predicate DistinctIndices(results: seq<Perf>) {
    forall k, l :: 0 <= k < l < |results| ==> results[k].index != results[l].index
  }

  /**
   * The fan-in loop of `solve`: each result taken is written into the
   * performance of the slot its index names, in the order taken.
   */
  function FanIn(params: seq<Point>, results: seq<Perf>): (r: seq<Point>)
    requires InRange(results, |params|)
    ensures |r| == |params|
    ensures forall i :: 0 <= i < |params| ==> r[i].vec == params[i].vec
  {
    if |results| == 0 then params
    else
      var p := results[|results| - 1];
      var before := FanIn(params, results[..|results| - 1]);
      before[p.index := before[p.index].(performance := p.performance)]
  }

  /** With distinct indices, a slot named by a result gets that result's performance. */
  lemma {:induction false} FanInSlot(params: seq<Point>, results: seq<Perf>, k: nat)
    requires InRange(results, |params|) && DistinctIndices(results) && k < |results|
    ensures FanIn(params, results)[results[k].index].performance == results[k].performance
    decreases |results|
  {
    var n := |results| - 1;
    if k < n {
      FanInSlot(params, results[..n], k);
    }
  }

  /** A slot no result names keeps what it had. */
  lemma {:induction false} FanInUntouched(params: seq<Point>, results: seq<Perf>, i: int)
    requires InRange(results, |params|) && 0 <= i < |params|
    requires forall k :: 0 <= k < |results| ==> results[k].index != i
    ensures FanIn(params, results)[i] == params[i]
    decreases |results|
  {
    if |results| > 0 {
      FanInUntouched(params, results[..|results| - 1], i);
    }
  }

  /** With distinct indices the order in which the results arrive does not matter. */
  lemma {:induction false} FanInOrderIndependent(params: seq<Point>, a: seq<Perf>, b: seq<Perf>)
    requires InRange(a, |params|) && DistinctIndices(a)
    requires InRange(b, |params|) && DistinctIndices(b)
    requires multiset(a) == multiset(b)
    ensures FanIn(params, a) == FanIn(params, b)
  {
    var fa := FanIn(params, a);
    var fb := FanIn(params, b);
    forall i | 0 <= i < |params|
      ensures fa[i] == fb[i]
    {
      if k :| 0 <= k < |a| && a[k].index == i {
        assert a[k] in multiset(b);
        var l :| 0 <= l < |b| && b[l] == a[k];
        FanInSlot(params, a, k);
        FanInSlot(params, b, l);
      } else {
        forall l | 0 <= l < |b|
          ensures b[l].index != i
        {
          assert b[l] in multiset(a);
        }
        FanInUntouched(params, a, i);
        FanInUntouched(params, b, i);
      }
    }
  }

  /** The indices the results name. */
  function Indices(results: seq<Perf>): (s: set<int>)
    ensures forall k :: 0 <= k < |results| ==> results[k].index in s
    ensures forall i :: i in s ==> exists k :: 0 <= k < |results| && results[k].index == i
  {
    set k | 0 <= k < |results| :: results[k].index
  }

  lemma {:induction false} IndicesCount(results: seq<Perf>)
    requires DistinctIndices(results)
    ensures |Indices(results)| == |results|
    decreases |results|
  {
    if |results| > 0 {
      var n := |results| - 1;
      var front := results[..n];
      IndicesCount(front);
      IndicesSnoc(results);
      assert results[n].index !in Indices(front);
    }
  }

  /** The last result adds its index to those of the results before it. */
  lemma {:induction false} IndicesSnoc(results: seq<Perf>)
    requires |results| > 0
    ensures Indices(results) == Indices(results[..|results| - 1]) + {results[|results| - 1].index}
  {
    var n := |results| - 1;
    var front := results[..n];
    forall i | i in Indices(results)
      ensures i in Indices(front) + {results[n].index}
    {
      var k :| 0 <= k < |results| && results[k].index == i;
      if k < n {
        assert front[k].index == i;
      }
    }
    forall i | i in Indices(front)
      ensures i in Indices(results)
    {
      var k :| 0 <= k < n && front[k].index == i;
      assert results[k].index == i;
    }
  }

  function Slots(n: nat): (s: set<int>)
    ensures forall i :: i in s <==> 0 <= i < n
    ensures |s| == n
  {
    if n == 0 then {} else Slots(n - 1) + {n - 1}
  }

  /** A subset as large as its superset is the whole superset. */
  lemma {:induction false} FullSubset(a: set<int>, b: set<int>)
    requires a <= b && |a| == |b|
    ensures a == b
  {
    assert b == a + (b - a);
    assert |b - a| == 0;
  }

  /**
   * When the indices taken are a permutation of the slots, every slot's
   * performance comes from the one result that names it.
   */
  lemma {:induction false} FanInCoversAll(params: seq<Point>, results: seq<Perf>, i: int) returns (k: nat)
    requires InRange(results, |params|) && DistinctIndices(results) && |results| == |params|
    requires 0 <= i < |params|
    ensures k < |results| && results[k].index == i
    ensures FanIn(params, results)[i] == params[i].(performance := results[k].performance)
  {
    IndicesCount(results);
    FullSubset(Indices(results), Slots(|params|));
    assert i in Indices(results);
    k :| 0 <= k < |results| && results[k].index == i;
    FanInSlot(params, results, k);
  }

  // ---------------------------------------------------------------- elite slots

  /** `elites / 2` in Java: integer division truncating toward zero. */
  function SaveCount(elites: int): (save: int)
    ensures elites >= 0 ==> 0 <= elites - 2 * save <= 1
    ensures elites < 0 ==> 0 <= 2 * save - elites <= 1
  {
    if elites >= 0 then elites / 2 else -((-elites) / 2)
  }

  /** The kept slots are among the elites. */
  lemma {:induction false} SaveWithinElites(elites: int)
    requires elites >= 0
    ensures 0 <= SaveCount(elites) <= elites
  {
  }

  /**
   * The resampling loop of `solve`: slots from `save` on get a new point made
   * from the next draw of the distribution, slots below it are kept. A
   * negative `save` fails on the first `params.set`.
   */
  function Resample(params: seq<Point>, save: int, draws: seq<seq<real>>): (r: Result<seq<Point>, SolverError>)
    requires save >= 0 ==> |params| - save <= |draws|
    ensures r.Failure? <==> save < 0
    ensures r.Success? ==>
      && |r.value| == |params|
      && (forall i :: 0 <= i < |params| && i < save ==> r.value[i] == params[i])
      && (forall i :: save <= i < |params| ==> r.value[i] == Point(draws[i - save], 0.0))
  {
    if save < 0 then Failure(IndexOutOfBounds)
    else
      Success(seq(|params|, i requires 0 <= i < |params| =>
        if i < save then params[i] else Point(draws[i - save], 0.0)))
  }

  /**
   * After a sort, the slots resampling keeps hold the best performers of the
   * previous iteration: none of the replaced points did better.
   */
  lemma {:induction false} KeptAreBest(params: seq<Point>, save: int, draws: seq<seq<real>>)
    requires SortedByCompare(params) && 0 <= save <= |params| && |params| - save <= |draws|
    ensures var r := Resample(params, save, draws).value;
      forall i, j :: 0 <= i < save <= j < |params| ==> params[j].performance <= r[i].performance
  {
    SortedElitesAreBest(params, save);
  }

  // ---------------------------------------------------------------- schedule

  /** The unclamped schedule: the initial noise moved by one step per iteration. */
  function Schedule(initialNoise: real, noiseStep: real, iter: int): real {
    initialNoise + noiseStep * (iter as real)
  }

  /** The noise `fitTo` receives at an iteration: the schedule clamped at 0. */
  function NoiseAt(initialNoise: real, noiseStep: real, iter: int): (noise: real)
    ensures noise >= 0.0 && noise >= Schedule(initialNoise, noiseStep, iter)
    ensures noise == 0.0 || noise == Schedule(initialNoise, noiseStep, iter)
  {
    var raw := Schedule(initialNoise, noiseStep, iter);
    if raw > 0.0 then raw else 0.0
  }

  /** A non-positive step makes the schedule non-increasing. */
  lemma {:induction false} ScheduleMonotone(initialNoise: real, noiseStep: real, i: int, j: int)
    requires noiseStep <= 0.0 && i <= j
    ensures Schedule(initialNoise, noiseStep, j) <= Schedule(initialNoise, noiseStep, i)
  {
    assert noiseStep * (j as real) - noiseStep * (i as real) == noiseStep * ((j - i) as real);
  }

  /** A non-positive step never lets the noise grow. */
  lemma {:induction false} NoiseNonIncreasing(initialNoise: real, noiseStep: real, i: int, j: int)
    requires noiseStep <= 0.0 && i <= j
    ensures NoiseAt(initialNoise, noiseStep, j) <= NoiseAt(initialNoise, noiseStep, i)
  {
    ScheduleMonotone(initialNoise, noiseStep, i, j);
  }

  /**
   * The Tetris driver's schedule, 8 falling by 0.1 a round: positive through
   * iteration 79 and 0 from iteration 80 on.
   */
  lemma {:induction false} TetrisSchedule(iter: int)
    requires iter >= 1
    ensures iter < 80 ==> NoiseAt(8.0, -0.1, iter) == Schedule(8.0, -0.1, iter) > 0.0
    ensures iter >= 80 ==> NoiseAt(8.0, -0.1, iter) == 0.0
  {
    assert Schedule(8.0, -0.1, 79) > 0.0 && Schedule(8.0, -0.1, 80) == 0.0;
    if iter < 80 {
      ScheduleMonotone(8.0, -0.1, iter, 79);
    } else {
      ScheduleMonotone(8.0, -0.1, 80, iter);
    }
  }

  /**
   * The iteration bound of `solve`: iterations continue while the count
   * allows and the distribution's average variance, `avgVars[k]` after k
   * iterations, is above the minimum. The count returned is how many ran.
   */
  method IterationCount(maxIterations: int, minVariance: real, avgVars: seq<real>) returns (n: nat)
    requires maxIterations <= |avgVars|
    ensures n <= maxIterations || n == 0
    ensures forall k :: 0 <= k < n ==> avgVars[k] > minVariance
    ensures n < maxIterations ==> avgVars[n] <= minVariance
  {
    n := 0;
    var iter := 1;
    while iter <= maxIterations && avgVars[iter - 1] > minVariance
      invariant n == iter - 1
      invariant n <= maxIterations || n == 0
      invariant forall k :: 0 <= k < n ==> avgVars[k] > minVariance
      decreases maxIterations - iter
    {
      n := n + 1;
      iter := iter + 1;
    }
  }

  // ---------------------------------------------------------------- spread measures

  /** Squared differences of a against the first |a| entries of b. */
  function SquaredDistance(a: seq<real>, b: seq<real>): (r: real)
    requires |a| <= |b|
    ensures r >= 0.0
  {
    if |a| == 0 then 0.0
    else
      var n := |a| - 1;
      SquaredDistance(a[..n], b) + Square(a[n] - b[n])
  }

  /**
   * `l2` before its square root: the mean squared difference. For an empty a
   * Java divides 0 by 0, which is not a number.
   */
  method MeanSquaredDistance(a: seq<real>, b: seq<real>) returns (r: Option<real>)
    requires |a| <= |b|
    ensures r.None? <==> |a| == 0
    ensures r.Some? ==> r.value == SquaredDistance(a, b) / (|a| as real) && r.value >= 0.0
  {
    var ans := 0.0;
    for i := 0 to |a|
      invariant ans == SquaredDistance(a[..i], b)
    {
      assert a[..i + 1][..i] == a[..i];
      ans := ans + (a[i] - b[i]) * (a[i] - b[i]);
    }
    assert a[..|a|] == a;
    if |a| == 0 {
      return None;
    }
    r := Some(ans / (|a| as real));
  }

  lemma {:induction false} SquaredDistanceSelf(a: seq<real>, b: seq<real>)
    requires |a| <= |b| && a == b[..|a|]
    ensures SquaredDistance(a, b) == 0.0
    decreases |a|
  {
    if |a| > 0 {
      var n := |a| - 1;
      assert a[..n] == b[..n];
      SquaredDistanceSelf(a[..n], b);
    }
  }

  lemma {:induction false} SquaredDistanceSymmetric(a: seq<real>, b: seq<real>)
    requires |a| == |b|
    ensures SquaredDistance(a, b) == SquaredDistance(b, a)
    decreases |a|
  {
    if |a| > 0 {
      var n := |a| - 1;
      SquaredDistanceSymmetric(a[..n], b[..n]);
      SquaredDistancePrefix(a[..n], b, b[..n]);
      SquaredDistancePrefix(b[..n], a, a[..n]);
      assert Square(a[n] - b[n]) == Square(b[n] - a[n]);
    }
  }

  /** Only the first |a| entries of b matter. */
  lemma {:induction false} SquaredDistancePrefix(a: seq<real>, b: seq<real>, c: seq<real>)
    requires |a| <= |b| && |a| <= |c| && b[..|a|] == c[..|a|]
    ensures SquaredDistance(a, b) == SquaredDistance(a, c)
    decreases |a|
  {
    if |a| > 0 {
      var n := |a| - 1;
      assert b[..n] == b[..|a|][..n] && c[..n] == c[..|a|][..n];
      assert b[n] == b[..|a|][n] && c[n] == c[..|a|][n];
      SquaredDistancePrefix(a[..n], b, c);
    }
  }

  /** The mean moves by 0 when it stays put, and the distance reads the same both ways. */
  lemma {:induction false} MeanSquaredDistanceProperties(a: seq<real>, b: seq<real>)
    requires |a| == |b| > 0
    ensures SquaredDistance(a, a) / (|a| as real) == 0.0
    ensures SquaredDistance(a, b) / (|a| as real) == SquaredDistance(b, a) / (|b| as real)
  {
    SquaredDistanceSelf(a, a);
    SquaredDistanceSymmetric(a, b);
  }

  /** The performances of a list of points, in list order. */
  function Scores(l: seq<Point>): (xs: seq<real>)
    ensures |xs| == |l|
    ensures forall k :: 0 <= k < |l| ==> xs[k] == l[k].performance
  {
    seq(|l|, k requires 0 <= k < |l| => l[k].performance)
  }

  /**
   * `scoreDeviation` before its square root: the squared deviations of the
   * performances from their mean, divided by their number. For an empty list
   * the mean is 0/0, not a number.
   */
  method ScoreDeviation(l: seq<Point>) returns (r: Option<real>)
    ensures r.None? <==> |l| == 0
    ensures r.Some? ==> r.value == SumSq(Scores(l), Mean(Scores(l))) / (|l| as real) && r.value >= 0.0
  {
    if |l| == 0 {
      return None;
    }
    var mean := TotalScore(l);
    mean := mean / (|l| as real);
    var variance := SquaredDeviations(l, mean);
    r := Some(variance / (|l| as real));
  }

  /** The first loop of `scoreDeviation`: the performances added up. */
  method TotalScore(l: seq<Point>) returns (total: real)
    ensures total == Sum(Scores(l))
  {
    ghost var xs := Scores(l);
    total := 0.0;
    for k := 0 to |l|
      invariant total == Sum(xs[..k])
    {
      SumSnoc(xs[..k], l[k].performance);
      assert xs[..k + 1] == xs[..k] + [l[k].performance];
      total := total + l[k].performance;
    }
    assert xs[..|l|] == xs;
  }

  /** The second loop of `scoreDeviation`: squared deviations from the mean. */
  method SquaredDeviations(l: seq<Point>, mean: real) returns (variance: real)
    ensures variance == SumSq(Scores(l), mean)
  {
    ghost var xs := Scores(l);
    variance := 0.0;
    for k := 0 to |l|
      invariant variance == SumSq(xs[..k], mean)
    {
      SumSqSnoc(xs[..k], l[k].performance, mean);
      assert xs[..k + 1] == xs[..k] + [l[k].performance];
      variance := variance + (l[k].performance - mean) * (l[k].performance - mean);
    }
    assert xs[..|l|] == xs;
  }

  /** Elites that all score the same have no spread, whatever their order. */
  lemma {:induction false} ScoreDeviationOfEqualScores(xs: seq<real>, c: real)
    requires |xs| > 0 && forall k :: 0 <= k < |xs| ==> xs[k] == c
    ensures SumSq(xs, Mean(xs)) / (|xs| as real) == 0.0
  {
    ConstantMean(xs, c);
    SumSqConstant(xs, c);
  }

  /** The spread does not depend on the order of the list. */
  lemma {:induction false} ScoreDeviationOrder(xs: seq<real>, ys: seq<real>)
    requires multiset(xs) == multiset(ys) && |xs| > 0
    ensures |ys| == |xs|
    ensures SumSq(xs, Mean(xs)) / (|xs| as real) == SumSq(ys, Mean(ys)) / (|ys| as real)
  {
    assert |xs| == |multiset(xs)| == |ys|;
    SumPermutation(xs, ys, 0.0);
    SumPermutation(xs, ys, Mean(xs));
  }
}

=== FILE: driver.dfy ===
/**
 * The Tetris driver's sizes: the board the initial distribution is sized
 * from and the board the "test" and "show" arguments are checked against.
 */
module TetrisDriver {
  import opened Playfields
  import opened ParameterCodec
  import SymmetricMixed

  /** Width of the training and evaluation boards. */
  const Width: nat := 10
  const TrainingHeight: nat := 12
  const EvaluationHeight: nat := 20

  /** The board the initial distribution's dimension is taken from, as written: 5 wide, 10 high. */
  const InitialWidth: nat := 5
  const InitialHeight: nat := 10

  /** Number of mixed features on an empty board of the given size. */
  function FeatureCount(width: nat, height: nat): (n: nat)
    requires height <= MaxBoardHeight
    ensures n == width + 5
  {
    var pf := NewPlayfield(width, height).value;
    SymmetricMixed.Dimension(pf)
  }

  /**
   * As written, the trained weights have as many entries as the 5-wide
   * board's features, 10, while "test" and "show" insist on the 10-wide
   * evaluation board's 15: the printed command line is refused.
   */
  lemma {:induction false} PrintedLineRefused(ps: seq<Bits64>, verb: string)
    requires verb == "test" || verb == "show"
    requires |ps| == FeatureCount(InitialWidth, InitialHeight)
    ensures MainArguments([verb] + Words(Join(Tokens(ps))), FeatureCount(Width, EvaluationHeight)) == UnknownArguments
  {
    WordsJoin(Tokens(ps));
  }

  /**
   * With the initial distribution sized from the board the driver plays on,
   * the printed command line tests (or shows) exactly the trained weights.
   */
  lemma {:induction false} PrintedLineAccepted(ps: seq<Bits64>, verb: string)
    requires verb == "test" || verb == "show"
    requires |ps| == FeatureCount(Width, TrainingHeight)
    ensures var cmd := MainArguments([verb] + Words(Join(Tokens(ps))), FeatureCount(Width, EvaluationHeight));
      cmd == (if verb == "test" then Test(ps) else Show(ps))
  {
    PrintedCommandLineRoundTrip(ps, verb);
  }
}

=== FILE: metrics.dfy ===
/**
 * The read-only board metrics the feature sets use: well sums, column and row
 * transitions, and hole sums. Each is a function of the columns or heights,
 * paired with a reference reading and with its behaviour under mirroring.
 */
module BoardMetrics {
  import opened Word32
  import opened Seqs
  import opened Playfields

  // ---------------------------------------------------------------- wells

  /** A well only counts when it is deeper than one row. */
  function WellTerm(m: int): int {
    if m > 1 then m else 0
  }

  /**
   * How far column c lies below the lower of its two neighbours, a side wall
   * counting as infinitely high.
   */
  function Depth(h: seq<int>, c: nat): int
    requires 2 <= |h| && c < |h|
  {
    if c == 0 then h[1] - h[0]
    else if c == |h| - 1 then h[|h| - 2] - h[|h| - 1]
    else Min(h[c - 1], h[c + 1]) - h[c]
  }

  function Wells(h: seq<int>): seq<int>
    requires 2 <= |h|
  {
    seq(|h|, c requires 0 <= c < |h| => WellTerm(Depth(h, c)))
  }

  /** The well sum: the depths of all wells deeper than one row, at the walls included. */
  function WellSum(h: seq<int>): int
    requires 2 <= |h|
  {
    Sum(Wells(h))
  }

  /** The inner terms of `wellsum` for columns 1 .. n-2. */
  function InnerWells(h: seq<int>, n: nat): int
    requires 2 <= n <= |h|
  {
    if n == 2 then 0 else InnerWells(h, n - 1) + WellTerm(Min(h[n - 3], h[n - 1]) - h[n - 2])
  }

  /**
   * `wellsum` as written. It differs from the well sum exactly in its
   * right-wall term: it counts how far the last column rises above its
   * neighbour instead of how far it lies below it.
   */
  function WellSumAsWritten(h: seq<int>): (r: int)
    requires 2 <= |h|
    ensures var w := |h|; r == WellSum(h) - WellTerm(h[w - 2] - h[w - 1]) + WellTerm(h[w - 1] - h[w - 2])
  {
    var w := |h|;
    WellsSplit(h);
    WellTerm(h[1] - h[0]) + InnerWells(h, w) + WellTerm(h[w - 1] - h[w - 2])
  }

  lemma {:induction false} InnerWellsIsSum(h: seq<int>, n: nat)
    requires 2 <= n <= |h|
    ensures InnerWells(h, n) == Sum(Wells(h)[1..n - 1])
    decreases n
  {
    if n > 2 {
      InnerWellsIsSum(h, n - 1);
      var ws := Wells(h);
      assert ws[1..n - 1] == ws[1..n - 2] + [ws[n - 2]];
      SumAppend(ws[1..n - 2], [ws[n - 2]]);
    }
  }

  /** The well sum is the left-wall term, the inner terms and the right-wall term. */
  lemma {:induction false} WellsSplit(h: seq<int>)
    requires 2 <= |h|
    ensures var w := |h|; WellSum(h) == WellTerm(h[1] - h[0]) + InnerWells(h, w) + WellTerm(h[w - 2] - h[w - 1])
  {
    var w := |h|;
    var ws := Wells(h);
    InnerWellsIsSum(h, w);
    assert ws == [ws[0]] + ws[1..w - 1] + [ws[w - 1]];
    SumAppend([ws[0]] + ws[1..w - 1], [ws[w - 1]]);
    SumAppend([ws[0]], ws[1..w - 1]);
  }

  /** A three-row well against the right wall is missed, while its mirror image is counted. */
  lemma {:induction false} WellSumAsWrittenMissesRightWell()
    ensures WellSumAsWritten([3, 3, 0]) == 0
    ensures WellSumAsWritten([0, 3, 3]) == 3
    ensures WellSum([3, 3, 0]) == 3 && WellSum([0, 3, 3]) == 3
  {
    assert Wells([3, 3, 0]) == [0, 0, 3];
    assert Wells([0, 3, 3]) == [3, 0, 0];
  }

  /**
   * Both the corrected well sum and `wellsum` as written are never negative,
   * and both are 0 on a flat board.
   */
  lemma {:induction false} WellSumNonnegative(h: seq<int>)
    requires 2 <= |h|
    ensures WellSum(h) >= 0 && WellSumAsWritten(h) >= 0
    ensures WellSum(h) == 0 <== forall c :: 0 <= c < |h| ==> h[c] == h[0]
    ensures WellSumAsWritten(h) == 0 <== forall c :: 0 <= c < |h| ==> h[c] == h[0]
  {
    SumNonnegative(Wells(h));
    WellsSplit(h);
    InnerWellsIsSum(h, |h|);
    SumNonnegative(Wells(h)[1..|h| - 1]);
    if forall c :: 0 <= c < |h| ==> h[c] == h[0] {
      SumConstant(Wells(h), 0);
    }
  }

  /** Mirroring the board leaves the well sum unchanged. */
  lemma {:induction false} WellSumMirror(h: seq<int>)
    requires 2 <= |h|
    ensures WellSum(Reverse(h)) == WellSum(h)
  {
    assert Wells(Reverse(h)) == Reverse(Wells(h));
    SumReverse(Wells(h));
  }

  /**
   * The loop of `wellsum`, with the right-wall term the right way round: the
   * left wall, then each inner column, then the right wall.
   */
  method ComputeWellSum(h: seq<int>) returns (ans: int)
    requires 2 <= |h|
    ensures ans == WellSum(h)
  {
    var w := |h|;
    ghost var ws := Wells(h);
    ans := 0;
    var m := h[1] - h[0];
    ans := ans + (if m > 1 then m else 0);
    assert ws[..1] == [ws[0]];
    for c := 2 to w
      invariant ans == Sum(ws[..c - 1])
    {
      m := Min(h[c - 2], h[c]) - h[c - 1];
      ans := ans + (if m > 1 then m else 0);
      assert ws[..c] == ws[..c - 1] + [ws[c - 1]];
      SumAppend(ws[..c - 1], [ws[c - 1]]);
    }
    m := h[w - 2] - h[w - 1];
    ans := ans + (if m > 1 then m else 0);
    assert ws == ws[..w - 1] + [ws[w - 1]];
    SumAppend(ws[..w - 1], [ws[w - 1]]);
  }

  /** The loop of `wellsum` as written, right-wall term included. */
  method ComputeWellSumAsWritten(h: seq<int>) returns (ans: int)
    requires 2 <= |h|
    ensures ans == WellSumAsWritten(h)
  {
    var w := |h|;
    ans := 0;
    var m := h[1] - h[0];
    ans := ans + (if m > 1 then m else 0);
    for c := 2 to w
      invariant ans == WellTerm(h[1] - h[0]) + InnerWells(h, c)
    {
      m := Min(h[c - 2], h[c]) - h[c - 1];
      ans := ans + (if m > 1 then m else 0);
    }
    m := h[w - 1] - h[w - 2];
    ans := ans + (if m > 1 then m else 0);
  }

  // ---------------------------------------------------------------- column transitions

  /** Row i differs from the row below it; the floor is not a row, so row 0 never counts. */
  function Changes(x: Word): Word {
    seq(32, i requires 0 <= i < 32 => i > 0 && x[i] != x[i - 1])
  }

  /**
   * The bit count of `x & ~x << 1 | ~x & x << 1`: one for every boundary
   * between two rows of the column at which it changes between filled and
   * empty. It is `bitCount(x ^ x << 1)` less the bottom bit, which that
   * expression would count as a change from the floor.
   */
  function ColumnTransitions(x: Word): (r: nat)
    ensures r == Count(Changes(x)) && r <= 31
    ensures r + (if x[0] then 1 else 0) == Count(Xor(x, Shl(x, 1)))
  {
    var t := Or(And(x, Shl(Not(x), 1)), And(Not(x), Shl(x, 1)));
    assert t == Changes(x) by {
      forall i | 0 <= i < 32
        ensures t[i] == Changes(x)[i]
      {
        assert Shl(x, 1)[i] == (i > 0 && x[i - 1]);
        assert Shl(Not(x), 1)[i] == (i > 0 && !x[i - 1]);
      }
    }
    var y := Xor(x, Shl(x, 1));
    assert y == [x[0]] + Changes(x)[1..];
    assert Changes(x) == [false] + Changes(x)[1..];
    assert Count(Changes(x)) == Count(Changes(x)[1..]);
    BitCount(t)
  }

  function ColumnTransitionTerms(cols: seq<Word>): seq<int> {
    seq(|cols|, c requires 0 <= c < |cols| => ColumnTransitions(cols[c]) as int)
  }

  /** `coltrans`: the column transitions of every column together, at most 31 per column. */
  function ColTrans(cols: seq<Word>): (r: int)
    ensures 0 <= r <= 31 * |cols|
  {
    SumBounds(ColumnTransitionTerms(cols), 31);
    Sum(ColumnTransitionTerms(cols))
  }

  // ---------------------------------------------------------------- row transitions

  /** The number of rows in which neighbouring columns c-1 and c differ. */
  function RowTransitionTerms(cols: seq<Word>): seq<int> {
    if |cols| == 0 then []
    else seq(|cols| - 1, c requires 0 <= c < |cols| - 1 => BitCount(Xor(cols[c + 1], cols[c])) as int)
  }

  /**
   * `rowtrans`: the filled/empty changes between horizontally adjacent cells,
   * at most one per row for each pair of neighbouring columns.
   */
  function RowTrans(cols: seq<Word>): (r: int)
    ensures 0 <= r && (|cols| <= 1 ==> r == 0) && (|cols| > 0 ==> r <= 32 * (|cols| - 1))
  {
    SumBounds(RowTransitionTerms(cols), 32);
    Sum(RowTransitionTerms(cols))
  }

  // ---------------------------------------------------------------- holes

  /** For each filled cell of b, the number of empty cells below it, added up. */
  function HolesBelow(b: seq<bool>): nat {
    if |b| == 0 then 0
    else
      var n := |b| - 1;
      HolesBelow(b[..n]) + (if b[n] then n - Count(b[..n]) else 0)
  }

  /** What `holeSums` adds for one column: its loop runs only while the column is positive. */
  function ColumnHoles(x: Word): nat {
    if x[31] then 0 else HolesBelow(x)
  }

  function HoleTerms(cols: seq<Word>): seq<int> {
    seq(|cols|, c requires 0 <= c < |cols| => ColumnHoles(cols[c]) as int)
  }

  /** `holeSums`: over all filled cells, the empty cells below each. */
  function HoleSums(cols: seq<Word>): (r: int)
    ensures r >= 0
  {
    SumNonnegative(HoleTerms(cols));
    Sum(HoleTerms(cols))
  }

  lemma {:induction false} HolesBelowTrailingEmpty(b: seq<bool>, k: nat)
    requires k <= |b| && forall j :: k <= j < |b| ==> !b[j]
    ensures HolesBelow(b) == HolesBelow(b[..k])
    decreases |b|
  {
    if |b| > k {
      var n := |b| - 1;
      HolesBelowTrailingEmpty(b[..n], k);
      assert b[..n][..k] == b[..k];
    } else {
      assert b[..k] == b;
    }
  }

  /** A column filled solidly from the floor up has no holes. */
  lemma {:induction false} HolesBelowSolid(b: seq<bool>, h: nat)
    requires h <= |b|
    requires forall j :: 0 <= j < |b| ==> (b[j] <==> j < h)
    ensures HolesBelow(b) == 0
    decreases |b|
  {
    if |b| > 0 {
      var n := |b| - 1;
      if h <= n {
        HolesBelowSolid(b[..n], h);
      } else {
        HolesBelowSolid(b[..n], n);
        CountAll(b[..n]);
      }
    }
  }

  lemma {:induction false} CountAll(b: seq<bool>)
    requires forall j :: 0 <= j < |b| ==> b[j]
    ensures Count(b) == |b|
    decreases |b|
  {
    if |b| > 0 {
      CountAll(b[1..]);
    }
  }

  /**
   * The column loop of `holeSums`: reading bits from the floor up while the
   * column stays positive, a filled cell adds the empty cells seen so far.
   */
  method ColumnHoleLoop(x: Word, before: int) returns (ans: int)
    ensures ans == before + ColumnHoles(x)
  {
    ans := before;
    var c := x;
    var nHoles := 0;
    ghost var k := 0;
    assert x[0..] + seq(0, _ => false) == x;
    while Positive(c)
      invariant k <= 31 && (k > 0 ==> !x[31])
      invariant c == x[k..] + seq(k, _ => false)
      invariant nHoles == k - Count(x[..k])
      invariant ans == before + HolesBelow(x[..k])
      decreases 32 - k
    {
      MaskStillPositive(x, k, c);
      assert c[0] == x[k];
      assert x[..k + 1][..k] == x[..k];
      assert x[..k + 1] == x[..k] + [x[k]];
      CountAppend(x[..k], [x[k]]);
      LowestBit(c);
      if And(c, One()) == One() {
        ans := ans + nHoles;
      } else {
        nHoles := nHoles + 1;
      }
      ShiftStep(x, k, c);
      c := Sar(c, 1);
      k := k + 1;
    }
    if !x[31] {
      assert c == Zero();
      forall j | k <= j < 32
        ensures !x[j]
      {
        assert c[j - k] == x[j];
      }
      HolesBelowTrailingEmpty(x, k);
    }
  }

  /** `holeSums` over every column. */
  method ComputeHoleSums(cols: seq<Word>) returns (ans: int)
    ensures ans == HoleSums(cols)
  {
    ans := 0;
    ghost var terms := HoleTerms(cols);
    for i := 0 to |cols|
      invariant ans == Sum(terms[..i])
    {
      ans := ColumnHoleLoop(cols[i], ans);
      assert terms[..i + 1] == terms[..i] + [terms[i]];
      SumAppend(terms[..i], [terms[i]]);
    }
    assert terms[..|cols|] == terms;
  }

  // ---------------------------------------------------------------- empty board and mirror image

  /** On an empty board there are no transitions, holes or wells. */
  lemma {:induction false} EmptyBoardMetrics(cols: seq<Word>, h: seq<int>)
    requires forall c :: 0 <= c < |cols| ==> cols[c] == Zero()
    requires |h| >= 2 && forall c :: 0 <= c < |h| ==> h[c] == 0
    ensures ColTrans(cols) == 0 && RowTrans(cols) == 0 && HoleSums(cols) == 0
    ensures WellSum(h) == 0 && WellSumAsWritten(h) == 0
  {
    forall c | 0 <= c < |cols|
      ensures ColumnTransitions(cols[c]) == 0 && ColumnHoles(cols[c]) == 0
    {
      assert Changes(cols[c]) == Zero();
      CountNone(Changes(cols[c]));
      HolesBelowSolid(cols[c], 0);
    }
    SumConstant(ColumnTransitionTerms(cols), 0);
    SumConstant(HoleTerms(cols), 0);
    forall c | 0 <= c < |RowTransitionTerms(cols)|
      ensures RowTransitionTerms(cols)[c] == 0
    {
      assert Xor(cols[c + 1], cols[c]) == Zero();
      CountNone(Xor(cols[c + 1], cols[c]));
    }
    SumConstant(RowTransitionTerms(cols), 0);
    WellSumNonnegative(h);
  }

  /** Column transitions and hole sums are per-column sums, so mirroring leaves them unchanged. */
  lemma {:induction false} ColumnMetricsMirror(cols: seq<Word>)
    ensures ColTrans(Reverse(cols)) == ColTrans(cols)
    ensures HoleSums(Reverse(cols)) == HoleSums(cols)
  {
    assert ColumnTransitionTerms(Reverse(cols)) == Reverse(ColumnTransitionTerms(cols));
    SumReverse(ColumnTransitionTerms(cols));
    assert HoleTerms(Reverse(cols)) == Reverse(HoleTerms(cols));
    SumReverse(HoleTerms(cols));
  }

  lemma {:induction false} XorSymmetric(a: Word, b: Word)
    ensures Xor(a, b) == Xor(b, a)
  {
  }

  /** Row transitions compare neighbours, which mirroring keeps as neighbours. */
  lemma {:induction false} RowTransMirror(cols: seq<Word>)
    ensures RowTrans(Reverse(cols)) == RowTrans(cols)
  {
    if |cols| > 0 {
      var n := |cols|;
      var t := RowTransitionTerms(cols);
      var rt := RowTransitionTerms(Reverse(cols));
      forall c | 0 <= c < n - 1
        ensures rt[c] == Reverse(t)[c]
      {
        XorSymmetric(cols[n - 1 - c], cols[n - 2 - c]);
      }
      assert rt == Reverse(t);
      SumReverse(t);
    }
  }
}

=== FILE: normal_distribution.dfy ===
/**
 * The isotropic normal distribution: one mean per dimension and one variance
 * shared by all of them. The mean array is the caller's own array, held by
 * reference, so fitting the distribution writes into it.
 */
module IsotropicNormal {
  import opened Wrappers
  import opened RealStats
  import opened Points

  datatype NormalDistribution = NormalDistribution(dim: nat, means: Ref, variance: real)

  /** The variance Java computes is not a number: no samples, or no dimensions. */
  datatype FitError = NotANumberVariance

  /** The distribution's view of the heap: its mean array exists and has `dim` entries. */
  predicate Allocated(h: Heap, d: NormalDistribution) {
    d.means in h && |h[d.means]| == d.dim
  }

  /** The constructor keeps the caller's array itself, not a copy. */
  function New(h: Heap, mean: Ref, variance: real): (d: NormalDistribution)
    requires mean in h
    ensures Allocated(h, d) && d.means == mean && d.variance == variance
  {
    NormalDistribution(|h[mean]|, mean, variance)
  }

  /** Component i of every sample. */
  function Column(samples: seq<seq<real>>, i: nat): (c: seq<real>)
    requires forall k :: 0 <= k < |samples| ==> i < |samples[k]|
    ensures |c| == |samples|
    ensures forall k :: 0 <= k < |samples| ==> c[k] == samples[k][i]
  {
    seq(|samples|, k requires 0 <= k < |samples| => samples[k][i])
  }

  /** Every sample has at least `dim` components. */
  predicate WideEnough(samples: seq<seq<real>>, dim: nat) {
    forall k :: 0 <= k < |samples| ==> dim <= |samples[k]|
  }

  /** The componentwise averages of the samples. */
  function Averages(samples: seq<seq<real>>, dim: nat): (r: seq<real>)
    requires WideEnough(samples, dim)
    ensures |r| == dim
  {
    seq(dim, i requires 0 <= i < dim => Mean(Column(samples, i)))
  }

  /** Squared distance of the first `dim` components of a sample from the means. */
  function Deviation(sample: seq<real>, means: seq<real>): (r: real)
    requires |means| <= |sample|
    ensures r >= 0.0
  {
    if |means| == 0 then 0.0
    else
      var n := |means| - 1;
      Deviation(sample, means[..n]) + Square(sample[n] - means[n])
  }

  /** Squared distances of all samples from the means. */
  function Pooled(samples: seq<seq<real>>, means: seq<real>): (r: real)
    requires WideEnough(samples, |means|)
    ensures r >= 0.0
  {
    if |samples| == 0 then 0.0
    else
      var n := |samples| - 1;
      Pooled(samples[..n], means) + Deviation(samples[n], means)
  }

  // ---------------------------------------------------------------- fitTo

  /** The first loop of `fitTo`: every sample's components, divided by the count, added up. */
  method Accumulate(samples: seq<seq<real>>, dim: nat) returns (means: seq<real>)
    requires WideEnough(samples, dim)
    ensures means == Averages(samples, dim)
  {
    means := seq(dim, _ => 0.0);
    if |samples| == 0 {
      return;
    }
    var n := |samples| as real;
    forall i | 0 <= i < dim
      ensures means[i] == Running(samples, 0, i)
    {
      assert |Column(samples[..0], i)| == 0;
    }
    for k := 0 to |samples|
      invariant |means| == dim
      invariant forall i :: 0 <= i < dim ==> means[i] == Running(samples, k, i)
    {
      var sample := samples[k];
      for i := 0 to dim
        invariant |means| == dim
        invariant forall j :: 0 <= j < i ==> means[j] == Running(samples, k + 1, j)
        invariant forall j :: i <= j < dim ==> means[j] == Running(samples, k, j)
      {
        AccumulateStep(samples, k, i, means[i]);
        means := means[i := means[i] + sample[i] / n];
      }
    }
    AveragesFromSums(samples, dim, means);
  }

  /** Component i summed over the first k samples and divided by the number of all samples. */
  function Running(samples: seq<seq<real>>, k: nat, i: nat): real
    requires k <= |samples| && |samples| > 0 && WideEnough(samples, i + 1)
  {
    Sum(Column(samples[..k], i)) / (|samples| as real)
  }

  /** Once every sample is in, the running sums divided by the count are the averages. */
  lemma {:induction false} AveragesFromSums(samples: seq<seq<real>>, dim: nat, means: seq<real>)
    requires WideEnough(samples, dim) && |samples| > 0 && |means| == dim
    requires forall i :: 0 <= i < dim ==> means[i] == Running(samples, |samples|, i)
    ensures means == Averages(samples, dim)
  {
    var a := Averages(samples, dim);
    assert samples[..|samples|] == samples;
    forall i | 0 <= i < dim
      ensures means[i] == a[i]
    {
      assert |Column(samples, i)| == |samples|;
    }
  }

  /** Adding sample k's component, divided by the count, extends the running column average by one sample. */
  lemma {:induction false} AccumulateStep(samples: seq<seq<real>>, k: nat, i: nat, m: real)
    requires k < |samples| && WideEnough(samples, i + 1)
    requires m == Running(samples, k, i)
    ensures m + samples[k][i] / (|samples| as real) == Running(samples, k + 1, i)
  {
    ColumnSnoc(samples, k, i);
    DivAdd(Sum(Column(samples[..k], i)), samples[k][i], |samples| as real);
  }

  /** One more sample adds its component to the column sum. */
  lemma {:induction false} ColumnSnoc(samples: seq<seq<real>>, k: nat, i: nat)
    requires k < |samples| && WideEnough(samples, i + 1)
    ensures Sum(Column(samples[..k + 1], i)) == Sum(Column(samples[..k], i)) + samples[k][i]
  {
    assert Column(samples[..k + 1], i) == Column(samples[..k], i) + [samples[k][i]];
    SumSnoc(Column(samples[..k], i), samples[k][i]);
  }

  lemma {:induction false} DivAdd(a: real, b: real, n: real)
    requires n != 0.0
    ensures a / n + b / n == (a + b) / n
  {
  }

  /** The second loop of `fitTo`: squared distances of all samples from the means. */
  method PooledDeviation(samples: seq<seq<real>>, means: seq<real>) returns (nvar: real)
    requires WideEnough(samples, |means|)
    ensures nvar == Pooled(samples, means)
  {
    nvar := 0.0;
    for k := 0 to |samples|
      invariant nvar == Pooled(samples[..k], means)
    {
      var sample := samples[k];
      var row := 0.0;
      for i := 0 to |means|
        invariant row == Deviation(sample, means[..i])
      {
        var si := sample[i];
        assert means[..i + 1][..i] == means[..i];
        row := row + (si - means[i]) * (si - means[i]);
      }
      assert means[..|means|] == means;
      assert samples[..k + 1][..k] == samples[..k];
      nvar := nvar + row;
    }
    assert samples[..|samples|] == samples;
  }

  /**
   * `fitTo`: the mean array (the caller's, by aliasing) becomes the
   * componentwise average of the samples, and the variance the pooled
   * squared distance per sample and dimension plus the noise. Nothing else on
   * the heap changes. With no samples the means are zeroed and, as with no
   * dimensions, the variance Java computes is 0/0, not a number.
   */
  method FitTo(h: Heap, d: NormalDistribution, samples: seq<seq<real>>, noise: real)
    returns (h': Heap, r: Result<NormalDistribution, FitError>)
    requires Allocated(h, d) && WideEnough(samples, d.dim)
    ensures h'.Keys == h.Keys && h'[d.means] == Averages(samples, d.dim)
    ensures forall a :: a in h && a != d.means ==> h'[a] == h[a]
    ensures r.Failure? <==> |samples| == 0 || d.dim == 0
    ensures r.Success? ==>
      && r.value == d.(variance := Pooled(samples, h'[d.means]) / (|samples| as real) / (d.dim as real) + noise)
      && Allocated(h', r.value)
      && r.value.variance >= noise
  {
    var means := Accumulate(samples, d.dim);
    h' := h[d.means := means];
    if |samples| == 0 || d.dim == 0 {
      return h', Failure(NotANumberVariance);
    }
    var nvar := PooledDeviation(samples, means);
    r := Success(d.(variance := nvar / (|samples| as real) / (d.dim as real) + noise));
  }

  // ---------------------------------------------------------------- identical samples

  /** Samples that all equal v average to v. */
  lemma {:induction false} AveragesOfIdentical(samples: seq<seq<real>>, v: seq<real>, dim: nat)
    requires |samples| > 0 && dim <= |v|
    requires forall k :: 0 <= k < |samples| ==> samples[k] == v
    ensures Averages(samples, dim) == v[..dim]
  {
    forall i | 0 <= i < dim
      ensures Mean(Column(samples, i)) == v[i]
    {
      ConstantMean(Column(samples, i), v[i]);
    }
  }

  lemma {:induction false} DeviationFromSelf(sample: seq<real>, means: seq<real>)
    requires |means| <= |sample| && means == sample[..|means|]
    ensures Deviation(sample, means) == 0.0
    decreases |means|
  {
    if |means| > 0 {
      var n := |means| - 1;
      assert means[..n] == sample[..n];
      DeviationFromSelf(sample, means[..n]);
    }
  }

  lemma {:induction false} PooledOfIdentical(samples: seq<seq<real>>, means: seq<real>)
    requires WideEnough(samples, |means|)
    requires forall k :: 0 <= k < |samples| ==> samples[k][..|means|] == means
    ensures Pooled(samples, means) == 0.0
    decreases |samples|
  {
    if |samples| > 0 {
      var n := |samples| - 1;
      PooledOfIdentical(samples[..n], means);
      DeviationFromSelf(samples[n], means);
    }
  }

  /** Fitting to copies of one vector gives that vector as the means and exactly the noise as the variance. */
  lemma {:induction false} FitToIdentical(samples: seq<seq<real>>, v: seq<real>, dim: nat, noise: real)
    requires |samples| > 0 && 0 < dim <= |v|
    requires forall k :: 0 <= k < |samples| ==> samples[k] == v
    ensures Averages(samples, dim) == v[..dim]
    ensures Pooled(samples, Averages(samples, dim)) / (|samples| as real) / (dim as real) + noise == noise
  {
    AveragesOfIdentical(samples, v, dim);
    PooledOfIdentical(samples, v[..dim]);
    ZeroDivided(|samples| as real, dim as real);
  }

  lemma {:induction false} ZeroDivided(n: real, d: real)
    requires n != 0.0 && d != 0.0
    ensures 0.0 / n / d == 0.0
  {
  }

  // ---------------------------------------------------------------- getters and sampling

  /**
   * `getMeans`: a copy of the mean array in a new array `target`; writing to
   * the copy leaves the distribution's means as they were.
   */
  function GetMeans(h: Heap, d: NormalDistribution, target: Ref): (r: Heap)
    requires Allocated(h, d) && target !in h
    ensures target in r && r[target] == h[d.means] && |r[target]| == d.dim
    ensures forall a :: a in h ==> a in r && r[a] == h[a]
  {
    h[target := h[d.means]]
  }

  lemma {:induction false} CopyIsIndependent(h: Heap, d: NormalDistribution, target: Ref, contents: seq<real>)
    requires Allocated(h, d) && target !in h
    ensures GetMeans(h, d, target)[target := contents][d.means] == h[d.means]
  {
  }

  /**
   * `sample`: one component per dimension, the mean plus a standard normal
   * draw scaled by `scale`, which stands for the square root of the variance.
   */
  function Sample(h: Heap, d: NormalDistribution, gaussians: seq<real>, scale: real): (r: seq<real>)
    requires Allocated(h, d) && d.dim <= |gaussians|
    ensures |r| == d.dim
    ensures forall i :: 0 <= i < d.dim && gaussians[i] == 0.0 ==> r[i] == h[d.means][i]
  {
    seq(d.dim, i requires 0 <= i < d.dim => h[d.means][i] + gaussians[i] * scale)
  }
}

=== FILE: playfield.dfy ===
/**
 * The bit-packed Tetris board. Column c is a Java `int` whose bit r is set when
 * the cell in row r (row 0 at the bottom) is filled; alongside the columns the
 * board keeps each column's height and the number of filled cells. Operations
 * return a new board instead of mutating the old one.
 */
module Playfields {
  import opened Word32
  import opened Seqs
  import opened Wrappers

  /** The tallest board the constructor accepts: every column then fits below the sign bit. */
  const MaxBoardHeight := 30

  datatype Playfield = Playfield(
    width: nat,
    height: nat,
    columns: seq<Word>,
    heightOf: seq<int>,
    nFull: int,
    terminated: bool)

  /** A piece in one orientation, with the per-column data the board uses to drop it. */
  datatype Piece = Piece(
    width: nat,
    height: nat,
    columns: seq<Word>,
    heightOf: seq<int>,
    heightBelow: seq<int>,
    nFull: int)

  datatype PlayfieldError = TooTall | OutsidePlayfield

  function Counts(cols: seq<Word>): seq<int> {
    seq(|cols|, c requires 0 <= c < |cols| => Count(cols[c]) as int)
  }

  function Heights(cols: seq<Word>): seq<int> {
    seq(|cols|, c requires 0 <= c < |cols| => Height(cols[c]) as int)
  }

  /**
   * The board's bookkeeping agrees with its columns: each stored height is the
   * column's highest filled row plus one, the filled-cell count is the number of
   * set bits, and no column uses the sign bit.
   */
  predicate Valid(pf: Playfield) {
    && |pf.columns| == pf.width
    && pf.height <= MaxBoardHeight
    && (forall c :: 0 <= c < pf.width ==> !pf.columns[c][31])
    && pf.heightOf == Heights(pf.columns)
    && pf.nFull == Sum(Counts(pf.columns))
  }

  /** The same bookkeeping for a piece; every piece column holds at least one cell. */
  predicate ValidPiece(p: Piece) {
    && p.width >= 1
    && |p.columns| == p.width
    && (forall w :: 0 <= w < p.width ==> Count(p.columns[w]) > 0)
    && p.heightOf == Heights(p.columns)
    && |p.heightBelow| == p.width
    && (forall w :: 0 <= w < p.width ==> p.heightBelow[w] == HeightBelow(p.columns[w]) as int)
    && p.nFull == Sum(Counts(p.columns))
    && p.height == MaxOrZero(p.heightOf)
  }

  /** `new Playfield(width, height)`: an empty board, refused when taller than 30 rows. */
  function NewPlayfield(width: nat, height: nat): (r: Result<Playfield, PlayfieldError>)
    ensures r.Success? <==> height <= MaxBoardHeight
    ensures r.Failure? ==> r.error == TooTall
    ensures r.Success? ==> var pf := r.value;
      && Valid(pf) && pf.width == width && pf.height == height && !pf.terminated
      && pf.nFull == 0
      && (forall c, i :: 0 <= c < width && 0 <= i < 32 ==> !pf.columns[c][i])
  {
    if height > MaxBoardHeight then Failure(TooTall)
    else
      var cols := seq(width, _ => Zero());
      EmptyCounts(cols);
      Success(Playfield(width, height, cols, Heights(cols), 0, false))
  }

  lemma {:induction false} EmptyCounts(cols: seq<Word>)
    requires forall c :: 0 <= c < |cols| ==> cols[c] == Zero()
    ensures Sum(Counts(cols)) == 0
    ensures forall c :: 0 <= c < |cols| ==> Height(cols[c]) == 0
  {
    forall c | 0 <= c < |cols|
      ensures Count(cols[c]) == 0
    {
      CountNone(cols[c]);
    }
    SumConstant(Counts(cols), 0);
  }

  /** `setTo`: this board takes every field of the other, its terminated flag included. */
  function SetTo(dst: Playfield, src: Playfield): (r: Playfield)
    requires dst.width == src.width && dst.height == src.height
    ensures r.terminated == src.terminated
    ensures r.columns == src.columns && r.heightOf == src.heightOf && r.nFull == src.nFull
    ensures Valid(src) ==> Valid(r)
  {
    dst.(columns := src.columns, heightOf := src.heightOf, nFull := src.nFull, terminated := src.terminated)
  }

  // ---------------------------------------------------------------- dropping a piece

  /** The piece lies inside the board when its leftmost column is `col`. */
  predicate Fits(pf: Playfield, p: Piece, col: int) {
    0 <= col && col + p.width <= pf.width
  }

  /**
   * The lowest shift that puts every piece column on or above the board
   * column under it: the largest `heightOf[col + w] - heightBelow[w]` over the
   * first n piece columns, and never below the floor.
   */
  function PlacementHeight(heightOf: seq<int>, heightBelow: seq<int>, col: nat, n: nat): (r: int)
    requires n <= |heightBelow| && col + n <= |heightOf|
    ensures r >= 0
    ensures forall w :: 0 <= w < n ==> heightOf[col + w] - heightBelow[w] <= r
    ensures r == 0 || exists w :: 0 <= w < n && r == heightOf[col + w] - heightBelow[w]
  {
    if n == 0 then 0
    else Max(PlacementHeight(heightOf, heightBelow, col, n - 1), heightOf[col + n - 1] - heightBelow[n - 1])
  }

  function DropHeight(pf: Playfield, p: Piece, col: int): int
    requires Valid(pf) && ValidPiece(p) && Fits(pf, p, col)
  {
    PlacementHeight(pf.heightOf, p.heightBelow, col, p.width)
  }

  /**
   * `placeWithoutClearing`: ORs the piece, shifted up by its placement height,
   * into the columns under it and returns the row just above the piece's top.
   * A piece reaching past either side is refused. Java's `<<` drops bits shifted
   * past bit 31, so the caller keeps the piece below the sign bit.
   */
  function PlaceWithoutClearing(pf: Playfield, p: Piece, col: int): (r: Result<(Playfield, int), PlayfieldError>)
    requires Valid(pf) && ValidPiece(p)
    requires Fits(pf, p, col) ==> DropHeight(pf, p, col) + p.height <= 31
    ensures !Fits(pf, p, col) <==> r == Failure(OutsidePlayfield)
    ensures r.Success? ==> r.value.1 == DropHeight(pf, p, col) + p.height
    ensures r.Success? ==> DropsInto(pf, p, col, DropHeight(pf, p, col), r.value.0)
  {
    if !Fits(pf, p, col) then Failure(OutsidePlayfield)
    else
      var ph := DropHeight(pf, p, col);
      Success((Dropped(pf, p, col, ph), ph + p.height))
  }

  /**
   * q is pf with the piece's columns, shifted up by ph, ORed into the columns
   * from col on, those columns raised to the piece's top, the filled-cell count
   * increased by the piece's and everything else unchanged.
   */
  predicate DropsInto(pf: Playfield, p: Piece, col: int, ph: nat, q: Playfield)
    requires |pf.columns| == |pf.heightOf| == pf.width && |p.columns| == |p.heightOf| == p.width && ph < 32
  {
    && q.width == pf.width && q.height == pf.height && q.terminated == pf.terminated
    && |q.columns| == pf.width && |q.heightOf| == pf.width
    && q.nFull == pf.nFull + p.nFull
    && (forall c :: 0 <= c < pf.width && col <= c < col + p.width ==>
          q.heightOf[c] == ph + p.heightOf[c - col]
          && q.columns[c] == Or(pf.columns[c], Shl(p.columns[c - col], ph)))
    && (forall c :: 0 <= c < pf.width && !(col <= c < col + p.width) ==>
          q.columns[c] == pf.columns[c] && q.heightOf[c] == pf.heightOf[c])
  }

  /** The board with the piece's columns ORed in at height ph and its bookkeeping updated to match. */
  function Dropped(pf: Playfield, p: Piece, col: nat, ph: nat): Playfield
    requires col + |p.columns| <= |pf.columns| && col + |p.heightOf| <= |pf.heightOf| && ph < 32
  {
    pf.(columns := DropColumns(pf.columns, p.columns, col, ph),
        heightOf := DropHeights(pf.heightOf, p.heightOf, col, ph),
        nFull := pf.nFull + p.nFull)
  }

  /** Board columns with the piece columns, shifted up by ph, ORed in from column col on. */
  function DropColumns(cols: seq<Word>, piece: seq<Word>, col: nat, ph: nat): (r: seq<Word>)
    requires col + |piece| <= |cols| && ph < 32
    ensures |r| == |cols|
    ensures forall c :: 0 <= c < |cols| && !(col <= c < col + |piece|) ==> r[c] == cols[c]
    ensures forall c :: col <= c < col + |piece| ==> r[c] == Or(cols[c], Shl(piece[c - col], ph))
  {
    seq(|cols|, c requires 0 <= c < |cols| =>
      if col <= c < col + |piece| then Or(cols[c], Shl(piece[c - col], ph)) else cols[c])
  }

  /** Board heights with the columns under the piece raised to the piece's top. */
  function DropHeights(heights: seq<int>, piece: seq<int>, col: nat, ph: int): (r: seq<int>)
    requires col + |piece| <= |heights|
    ensures |r| == |heights|
    ensures forall c :: 0 <= c < |heights| && !(col <= c < col + |piece|) ==> r[c] == heights[c]
    ensures forall c :: col <= c < col + |piece| ==> r[c] == ph + piece[c - col]
  {
    seq(|heights|, c requires 0 <= c < |heights| =>
      if col <= c < col + |piece| then ph + piece[c - col] else heights[c])
  }

  /** Dropping a piece keeps the board's bookkeeping consistent with its columns. */
  lemma {:induction false} PlaceWithoutClearingValid(pf: Playfield, p: Piece, col: int)
    requires Valid(pf) && ValidPiece(p) && Fits(pf, p, col)
    requires DropHeight(pf, p, col) + p.height <= 31
    ensures PlaceWithoutClearing(pf, p, col).Success?
    ensures Valid(PlaceWithoutClearing(pf, p, col).value.0)
  {
    var ph := DropHeight(pf, p, col);
    DropFits(pf.columns, pf.heightOf, p.columns, p.heightOf, p.heightBelow, p.height, col);
    DroppedValid(pf, p, col, ph);
  }

  /**
   * The board with the piece ORed in at height ph keeps its bookkeeping
   * consistent, provided every piece column rests on or above the board column
   * under it and the piece stays below the sign bit.
   */
  lemma {:induction false} DroppedValid(pf: Playfield, p: Piece, col: nat, ph: nat)
    requires Valid(pf) && col + |p.columns| <= pf.width && ph + p.height <= 31
    requires p.heightOf == Heights(p.columns) && p.nFull == Sum(Counts(p.columns))
    requires forall w :: 0 <= w < |p.columns| ==> Height(pf.columns[col + w]) <= ph + HeightBelow(p.columns[w])
    requires forall w :: 0 <= w < |p.columns| ==> Count(p.columns[w]) > 0 && Height(p.columns[w]) <= p.height
    ensures Valid(Dropped(pf, p, col, ph))
  {
    var cols := DropColumns(pf.columns, p.columns, col, ph);
    DropColumnsValid(pf.columns, p.columns, col, ph, p.height, pf.heightOf, p.heightOf);
    ValidWith(pf, cols, DropHeights(pf.heightOf, p.heightOf, col, ph), pf.nFull + p.nFull);
  }

  /** A valid board given new columns keeps its bookkeeping when the heights and count are recomputed from them. */
  lemma {:induction false} ValidWith(pf: Playfield, cols: seq<Word>, heights: seq<int>, nFull: int)
    requires Valid(pf) && |cols| == pf.width && (forall c :: 0 <= c < |cols| ==> !cols[c][31])
    requires heights == Heights(cols) && nFull == Sum(Counts(cols))
    ensures Valid(pf.(columns := cols, heightOf := heights, nFull := nFull))
  {
  }

  /** At the placement height every piece column rests on or above the board column under it. */
  lemma {:induction false} DropFits(cols: seq<Word>, heights: seq<int>, piece: seq<Word>, pieceHeights: seq<int>, below: seq<int>, top: int, col: nat)
    requires heights == Heights(cols) && pieceHeights == Heights(piece) && top == MaxOrZero(pieceHeights)
    requires |below| == |piece| && col + |piece| <= |cols|
    requires forall w :: 0 <= w < |piece| ==> below[w] == HeightBelow(piece[w]) as int
    ensures forall w :: 0 <= w < |piece| ==>
      Height(piece[w]) <= top
      && Height(cols[col + w]) <= PlacementHeight(heights, below, col, |piece|) + HeightBelow(piece[w])
  {
    forall w | 0 <= w < |piece|
      ensures Height(piece[w]) <= top
      ensures Height(cols[col + w]) <= PlacementHeight(heights, below, col, |piece|) + HeightBelow(piece[w])
    {
      BelowTop(piece, pieceHeights, top, w);
      RestsOn(cols, heights, piece, below, col, w);
    }
  }

  lemma {:induction false} BelowTop(piece: seq<Word>, pieceHeights: seq<int>, top: int, w: nat)
    requires pieceHeights == Heights(piece) && top == MaxOrZero(pieceHeights) && w < |piece|
    ensures Height(piece[w]) <= top
  {
    assert pieceHeights[w] <= top;
  }

  lemma {:induction false} RestsOn(cols: seq<Word>, heights: seq<int>, piece: seq<Word>, below: seq<int>, col: nat, w: nat)
    requires heights == Heights(cols) && |below| == |piece| && col + |piece| <= |cols| && w < |piece|
    requires below[w] == HeightBelow(piece[w]) as int
    ensures Height(cols[col + w]) <= PlacementHeight(heights, below, col, |piece|) + HeightBelow(piece[w])
  {
    assert heights[col + w] - below[w] <= PlacementHeight(heights, below, col, |piece|);
  }

  lemma {:induction false} DropColumnsValid(cols: seq<Word>, piece: seq<Word>, col: nat, ph: nat, top: int, hs: seq<int>, phs: seq<int>)
    requires col + |piece| <= |cols| && ph < 32 && ph + top <= 31
    requires hs == Heights(cols) && phs == Heights(piece)
    requires forall c :: 0 <= c < |cols| ==> !cols[c][31]
    requires forall w :: 0 <= w < |piece| ==> Count(piece[w]) > 0 && Height(piece[w]) <= top
    requires forall w :: 0 <= w < |piece| ==> Height(cols[col + w]) <= ph + HeightBelow(piece[w])
    ensures var r := DropColumns(cols, piece, col, ph);
      && (forall c :: 0 <= c < |r| ==> !r[c][31])
      && Heights(r) == DropHeights(hs, phs, col, ph)
      && Sum(Counts(r)) == Sum(Counts(cols)) + Sum(Counts(piece))
  {
    var r := DropColumns(cols, piece, col, ph);
    var added := Padded(Counts(piece), col, |cols|);
    var heights := DropHeights(hs, phs, col, ph);
    forall c | 0 <= c < |cols|
      ensures !r[c][31] && Height(r[c]) == heights[c] && Count(r[c]) == Count(cols[c]) + added[c]
    {
      if col <= c < col + |piece| {
        var w := c - col;
        assert Count(piece[w]) > 0 && Height(piece[w]) <= top;
        assert Height(cols[col + w]) <= ph + HeightBelow(piece[w]);
      }
      DropColumnAt(cols, piece, col, ph, c);
    }
    assert Heights(r) == heights;
    SumPointwise(Counts(cols), added, Counts(r));
    SumPadded(Counts(piece), col, added);
  }

  /** A sequence placed at offset `before` in n slots, zeros elsewhere. */
  function Padded(s: seq<int>, before: nat, n: nat): (r: seq<int>)
    requires before + |s| <= n
    ensures |r| == n
    ensures forall c :: 0 <= c < n ==> r[c] == if before <= c < before + |s| then s[c - before] else 0
  {
    seq(n, c requires 0 <= c < n => if before <= c < before + |s| then s[c - before] else 0)
  }

  /** Column c of a drop: the sign bit stays clear, the height and the count are as the bookkeeping says. */
  lemma {:induction false} DropColumnAt(cols: seq<Word>, piece: seq<Word>, col: nat, ph: nat, c: nat)
    requires col + |piece| <= |cols| && ph < 32 && c < |cols| && !cols[c][31]
    requires col <= c < col + |piece| ==>
      && Count(piece[c - col]) > 0 && Height(piece[c - col]) + ph <= 31
      && Height(cols[c]) <= ph + HeightBelow(piece[c - col])
    ensures var r := DropColumns(cols, piece, col, ph);
      && !r[c][31]
      && Height(r[c]) == DropHeights(Heights(cols), Heights(piece), col, ph)[c]
      && Count(r[c]) == Count(cols[c]) + Padded(Counts(piece), col, |cols|)[c]
  {
    if col <= c < col + |piece| {
      DropColumn(cols[c], piece[c - col], ph);
    }
  }

  /** Padding a sequence with zeros on both sides keeps its sum. */
  lemma {:induction false} SumPadded(s: seq<int>, before: nat, padded: seq<int>)
    requires before + |s| <= |padded|
    requires forall c :: 0 <= c < |padded| ==>
      padded[c] == if before <= c < before + |s| then s[c - before] else 0
    ensures Sum(padded) == Sum(s)
  {
    var left := padded[..before];
    var mid := padded[before..before + |s|];
    var right := padded[before + |s|..];
    assert padded == left + mid + right;
    assert mid == s;
    SumAppend(left + mid, right);
    SumAppend(left, mid);
    SumConstant(left, 0);
    SumConstant(right, 0);
  }

  /**
   * One column of a drop: when the old column ends at or below the lowest
   * shifted piece cell, the OR is a disjoint union whose top is the piece's top.
   */
  lemma {:induction false} DropColumn(below: Word, pc: Word, ph: nat)
    requires !below[31] && Count(pc) > 0
    requires Height(below) <= ph + HeightBelow(pc)
    requires Height(pc) + ph <= 31
    ensures var n := Or(below, Shl(pc, ph));
      !n[31] && Height(n) == ph + Height(pc) && Count(n) == Count(below) + Count(pc)
  {
    var s := Shl(pc, ph);
    var n := Or(below, s);
    if Height(pc) == 0 {
      CountNone(pc);
    }
    ShlKeepsCount(pc, ph);
    assert HeightBelow(pc) < Height(pc) by {
      if HeightBelow(pc) == 32 {
        CountNone(pc);
      }
    }
    forall j | 0 <= j < 32
      ensures !(below[j] && s[j])
    {
      if below[j] && j >= ph {
        assert j < Height(below);
        assert !pc[j - ph];
      }
    }
    CountDisjointUnion(below, s, n);
    HeightUnique(n, ph + Height(pc));
  }

  // ---------------------------------------------------------------- clearing rows

  /** Row i is filled in every column. */
  predicate RowFull(cols: seq<Word>, i: nat)
    requires i < 32
  {
    forall c :: 0 <= c < |cols| ==> cols[c][i]
  }

  /** `~0` ANDed with every column: a bit is set exactly where the row is filled everywhere. */
  function FullRows(cols: seq<Word>): (r: Word)
    ensures forall i :: 0 <= i < 32 ==> (r[i] <==> RowFull(cols, i))
  {
    if |cols| == 0 then AllOnes() else And(FullRows(cols[..|cols| - 1]), cols[|cols| - 1])
  }

  /**
   * The expression `(col & ~((1 << i + 1) - 1)) >> 1 | col & ((1 << i) - 1)`:
   * bits below i stay, bit i is dropped and the bits above move down one row.
   */
  function RemoveBit(x: Word, i: nat): (r: Word)
    requires i <= 30
    ensures forall j :: 0 <= j < i ==> r[j] == x[j]
    ensures forall j :: i <= j < 31 ==> r[j] == x[j + 1]
    ensures r[31] == x[31]
  {
    LowMaskValue(i);
    LowMaskValue(i + 1);
    Or(Sar(And(x, Not(LowMask(i + 1))), 1), And(x, LowMask(i)))
  }

  /** `removeRow(i)` on a full row: every column loses row i and the count drops by the width. */
  function RemoveRow(pf: Playfield, i: nat): (r: Playfield)
    requires Valid(pf) && i <= 30 && RowFull(pf.columns, i)
    ensures Valid(r)
    ensures r.width == pf.width && r.height == pf.height && r.terminated == pf.terminated
    ensures forall c :: 0 <= c < pf.width ==>
      r.columns[c] == pf.columns[c][..i] + pf.columns[c][i + 1..] + [false]
    ensures r.nFull == pf.nFull - pf.width
  {
    var cols := seq(pf.width, c requires 0 <= c < pf.width => RemoveBit(pf.columns[c], i));
    RemoveRowCounts(pf, i, cols);
    pf.(columns := cols, heightOf := Heights(cols), nFull := pf.nFull - pf.width)
  }

  lemma {:induction false} RemoveRowCounts(pf: Playfield, i: nat, cols: seq<Word>)
    requires Valid(pf) && i <= 30 && RowFull(pf.columns, i)
    requires cols == seq(pf.width, c requires 0 <= c < pf.width => RemoveBit(pf.columns[c], i))
    ensures forall c :: 0 <= c < pf.width ==>
      cols[c] == pf.columns[c][..i] + pf.columns[c][i + 1..] + [false]
    ensures Sum(Counts(cols)) == pf.nFull - pf.width
  {
    forall c | 0 <= c < pf.width
      ensures cols[c] == pf.columns[c][..i] + pf.columns[c][i + 1..] + [false]
      ensures Counts(cols)[c] == Counts(pf.columns)[c] + -1
    {
      var x := pf.columns[c];
      assert cols[c] == x[..i] + x[i + 1..] + [false];
      DropPositionCount(x, i);
    }
    SumPointwise(Counts(pf.columns), seq(pf.width, _ => -1), Counts(cols));
    SumConstant(seq(pf.width, _ => -1), -1);
  }

  /** The bits of b at the positions where the mask m is clear, in order. */
  function Keep(b: seq<bool>, m: seq<bool>): (r: seq<bool>)
    requires |b| == |m|
    ensures |r| + Count(m) == |b|
  {
    if |b| == 0 then [] else (if m[0] then [] else [b[0]]) + Keep(b[1..], m[1..])
  }

  /** The position of b that the i-th kept bit comes from; it is never masked. */
  function KeptPosition(m: seq<bool>, i: nat): (r: nat)
    requires i + Count(m) < |m|
    ensures r < |m| && !m[r]
  {
    if m[0] then 1 + KeptPosition(m[1..], i)
    else if i == 0 then 0
    else 1 + KeptPosition(m[1..], i - 1)
  }

  lemma {:induction false} KeepAt(b: seq<bool>, m: seq<bool>, i: nat)
    requires |b| == |m| && i + Count(m) < |m|
    ensures Keep(b, m)[i] == b[KeptPosition(m, i)]
    decreases |m|
  {
    if m[0] {
      KeepAt(b[1..], m[1..], i);
    } else if i > 0 {
      KeepAt(b[1..], m[1..], i - 1);
    }
  }

  lemma {:induction false} KeepAppend(a: seq<bool>, b: seq<bool>, ma: seq<bool>, mb: seq<bool>)
    requires |a| == |ma| && |b| == |mb|
    ensures Keep(a + b, ma + mb) == Keep(a, ma) + Keep(b, mb)
    decreases |a|
  {
    if |a| == 0 {
      assert a + b == b && ma + mb == mb;
    } else {
      assert (a + b)[1..] == a[1..] + b;
      assert (ma + mb)[1..] == ma[1..] + mb;
      KeepAppend(a[1..], b, ma[1..], mb);
    }
  }

  lemma {:induction false} KeepUnmasked(b: seq<bool>, m: seq<bool>)
    requires |b| == |m| && forall j :: 0 <= j < |m| ==> !m[j]
    ensures Keep(b, m) == b
    decreases |b|
  {
    if |b| > 0 {
      KeepUnmasked(b[1..], m[1..]);
    }
  }

  /**
   * The column x once the rows set in `full` are removed: the other rows keep
   * their order and move down, and empty rows enter at the top.
   */
  function Compact(x: Word, full: Word): Word {
    Keep(x, full) + seq(Count(full), _ => false)
  }

  /** A column part-way through `removeFull`: rows below k processed, the rest untouched. */
  function Partial(x: Word, full: Word, k: nat): (r: seq<bool>)
    requires k <= 32
    ensures |r| == 32
  {
    Keep(x[..k], full[..k]) + x[k..] + seq(Count(full[..k]), _ => false)
  }

  /**
   * One row further: the column part-way through holds row k at `index`, and
   * processing row k removes it there when the row is full.
   */
  lemma {:induction false} PartialStep(x: Word, full: Word, k: nat, index: nat, e: seq<bool>)
    requires k < 32 && index == k - Count(full[..k]) && e == Partial(x, full, k)
    ensures index < 32 && e[index] == x[k]
    ensures Partial(x, full, k + 1) == (if full[k] then e[..index] + e[index + 1..] + [false] else e)
  {
    var kept := Keep(x[..k], full[..k]);
    var n := Count(full[..k]);
    assert |kept| == index;
    PartialNext(x, full, k);
    assert x[k..] == [x[k]] + x[k + 1..];
    assert e == kept + [x[k]] + (x[k + 1..] + seq(n, _ => false));
    if full[k] {
      assert e[..index] == kept;
      assert e[index + 1..] == x[k + 1..] + seq(n, _ => false);
      assert seq(n + 1, _ => false) == seq(n, _ => false) + [false];
    }
  }

  /** Row k moves from the untouched part into the processed part. */
  lemma {:induction false} PartialNext(x: Word, full: Word, k: nat)
    requires k < 32
    ensures Partial(x, full, k + 1) ==
      Keep(x[..k], full[..k]) + (if full[k] then [] else [x[k]]) + x[k + 1..]
        + seq(Count(full[..k]) + (if full[k] then 1 else 0), _ => false)
  {
    assert x[..k + 1] == x[..k] + [x[k]];
    assert full[..k + 1] == full[..k] + [full[k]];
    KeepAppend(x[..k], [x[k]], full[..k], [full[k]]);
    CountAppend(full[..k], [full[k]]);
    assert Keep([x[k]], [full[k]]) == if full[k] then [] else [x[k]];
  }

  lemma {:induction false} PartialDone(x: Word, full: Word, k: nat)
    requires k <= 32 && forall j :: k <= j < 32 ==> !full[j]
    ensures Partial(x, full, k) == Compact(x, full)
    ensures Count(full) == Count(full[..k])
  {
    assert x == x[..k] + x[k..];
    assert full == full[..k] + full[k..];
    KeepAppend(x[..k], x[k..], full[..k], full[k..]);
    KeepUnmasked(x[k..], full[k..]);
    CountAppend(full[..k], full[k..]);
    CountNone(full[k..]);
  }

  /** After compacting every column by the full-row mask no row is full. */
  lemma {:induction false} CompactLeavesNoFullRow(cols: seq<Word>, compacted: seq<Word>, i: nat)
    requires |cols| > 0 && |compacted| == |cols| && i < 32
    requires forall c :: 0 <= c < |cols| ==> compacted[c] == Compact(cols[c], FullRows(cols))
    ensures !RowFull(compacted, i)
  {
    var full := FullRows(cols);
    var kept := 32 - Count(full);
    if i < kept {
      var j := KeptPosition(full, i);
      assert !RowFull(cols, j);
      var c :| 0 <= c < |cols| && !cols[c][j];
      KeepAt(cols[c], full, i);
      assert compacted[c][i] == Keep(cols[c], full)[i];
    } else {
      assert |Keep(cols[0], full)| == kept;
      assert !compacted[0][i];
    }
  }

  /**
   * One turn of the `removeFull` loop on row k: a full row is removed at the
   * position it has reached, `index`, and every column moves one row further.
   */
  lemma {:induction false} RemoveFullStep(cols: seq<Word>, current: seq<Word>, f0: Word, k: nat, index: nat)
    requires |current| == |cols| && k < 31
    requires f0 == FullRows(cols) && index == k - Count(f0[..k])
    requires forall c :: 0 <= c < |cols| ==> current[c] == Partial(cols[c], f0, k)
    ensures index <= 30
    ensures Count(f0[..k + 1]) == Count(f0[..k]) + (if f0[k] then 1 else 0)
    ensures f0[k] ==> RowFull(current, index)
    ensures forall c :: 0 <= c < |cols| ==>
      Partial(cols[c], f0, k + 1) == (if f0[k] then current[c][..index] + current[c][index + 1..] + [false] else current[c])
  {
    CountStep(f0, k);
    forall c | 0 <= c < |cols|
      ensures current[c][index] == cols[c][k]
      ensures Partial(cols[c], f0, k + 1) ==
        (if f0[k] then current[c][..index] + current[c][index + 1..] + [false] else current[c])
    {
      PartialStep(cols[c], f0, k, index, current[c]);
    }
    if f0[k] {
      assert RowFull(cols, k);
    }
  }

  lemma {:induction false} CountStep(m: Word, k: nat)
    requires k < 32
    ensures Count(m[..k + 1]) == Count(m[..k]) + (if m[k] then 1 else 0)
  {
    assert m[..k + 1] == m[..k] + [m[k]];
    CountAppend(m[..k], [m[k]]);
  }

  /** When the loop stops, every column is compacted and the count is that of the mask. */
  lemma {:induction false} RemoveFullDone(cols: seq<Word>, r: Playfield, f0: Word, k: nat, full: Word)
    requires |cols| > 0 && |r.columns| == |cols| && k <= 32 && f0 == FullRows(cols)
    requires full == f0[k..] + seq(k, _ => false) && !Positive(full) && !f0[31]
    requires forall c :: 0 <= c < |cols| ==> r.columns[c] == Partial(cols[c], f0, k)
    ensures Count(f0) == Count(f0[..k])
    ensures forall c :: 0 <= c < |cols| ==> r.columns[c] == Compact(cols[c], f0)
    ensures forall i :: 0 <= i < 32 ==> !RowFull(r.columns, i)
  {
    if k > 0 {
      assert !full[31];
    }
    assert full == Zero();
    forall j | k <= j < 32
      ensures !f0[j]
    {
      assert full[j - k] == f0[j];
    }
    forall c | 0 <= c < |cols|
      ensures r.columns[c] == Compact(cols[c], f0)
    {
      PartialDone(cols[c], f0, k);
    }
    PartialDone(cols[0], f0, k);
    forall i | 0 <= i < 32
      ensures !RowFull(r.columns, i)
    {
      CompactLeavesNoFullRow(cols, r.columns, i);
    }
  }

  /**
   * The state of `removeFull` after k turns: the mask has moved down k rows,
   * `cleared` full rows were removed, `index` is where row k now sits, and each
   * column is its partial compaction.
   */
  ghost predicate Progress(pf: Playfield, f0: Word, k: nat, full: Word, r: Playfield, index: int, cleared: int) {
    && |pf.columns| == pf.width
    && k <= 31 && (k > 0 ==> !f0[31])
    && full == f0[k..] + seq(k, _ => false)
    && cleared == Count(f0[..k]) && index == k - cleared
    && Valid(r)
    && r.width == pf.width && r.height == pf.height && r.terminated == pf.terminated
    && forall c :: 0 <= c < pf.width ==> r.columns[c] == Partial(pf.columns[c], f0, k)
  }

  lemma {:induction false} ProgressStart(pf: Playfield)
    requires Valid(pf)
    ensures Progress(pf, FullRows(pf.columns), 0, FullRows(pf.columns), pf, 0, 0)
  {
    var f0 := FullRows(pf.columns);
    assert f0[0..] + seq(0, _ => false) == f0;
    forall c | 0 <= c < pf.width
      ensures pf.columns[c] == Partial(pf.columns[c], f0, 0)
    {
      assert pf.columns[c][0..] == pf.columns[c];
    }
  }

  /** A turn on a full row removes it at `index`. */
  lemma {:induction false} ProgressRemove(pf: Playfield, f0: Word, k: nat, full: Word, r: Playfield, index: int, cleared: int)
    requires Valid(pf) && f0 == FullRows(pf.columns)
    requires Progress(pf, f0, k, full, r, index, cleared) && Positive(full) && full[0]
    ensures 0 <= index <= 30 && RowFull(r.columns, index)
    ensures Progress(pf, f0, k + 1, Sar(full, 1), RemoveRow(r, index), index, cleared + 1)
  {
    MaskStillPositive(f0, k, full);
    RemoveFullStep(pf.columns, r.columns, f0, k, index);
    ShiftStep(f0, k, full);
    RemovedColumns(pf.columns, r, f0, k, index);
  }

  /** Removing the full row at `index` takes every partial column one row further. */
  lemma {:induction false} RemovedColumns(cols: seq<Word>, r: Playfield, f0: Word, k: nat, index: nat)
    requires Valid(r) && |cols| == r.width && k < 31 && index <= 30 && f0[k] && RowFull(r.columns, index)
    requires forall c :: 0 <= c < |cols| ==>
      Partial(cols[c], f0, k + 1) == r.columns[c][..index] + r.columns[c][index + 1..] + [false]
    ensures forall c :: 0 <= c < |cols| ==> RemoveRow(r, index).columns[c] == Partial(cols[c], f0, k + 1)
  {
  }

  /** A turn on a row that is not full steps past it. */
  lemma {:induction false} ProgressSkip(pf: Playfield, f0: Word, k: nat, full: Word, r: Playfield, index: int, cleared: int)
    requires Valid(pf) && f0 == FullRows(pf.columns)
    requires Progress(pf, f0, k, full, r, index, cleared) && Positive(full) && !full[0]
    ensures Progress(pf, f0, k + 1, Sar(full, 1), r, index + 1, cleared)
  {
    MaskStillPositive(f0, k, full);
    RemoveFullStep(pf.columns, r.columns, f0, k, index);
    ShiftStep(f0, k, full);
  }

  /** When the mask is no longer positive the loop has done all its work. */
  lemma {:induction false} ProgressDone(pf: Playfield, f0: Word, k: nat, full: Word, r: Playfield, index: int, cleared: int)
    requires Valid(pf) && f0 == FullRows(pf.columns)
    requires Progress(pf, f0, k, full, r, index, cleared) && !Positive(full)
    ensures forall c :: 0 <= c < pf.width ==> r.columns[c] == Compact(pf.columns[c], f0)
    ensures cleared == if pf.width == 0 then 0 else Count(f0)
    ensures pf.width > 0 ==> forall i :: 0 <= i < 32 ==> !RowFull(r.columns, i)
  {
    if pf.width > 0 {
      assert !pf.columns[0][31];
      RemoveFullDone(pf.columns, r, f0, k, full);
    }
  }

  /**
   * `removeFull`: walks the full-row mask upwards, removing each full row. The
   * result is every column compacted by the rows that were full, the returned
   * count is the number of those rows, and afterwards no row is full.
   */
  method RemoveFull(pf: Playfield) returns (r: Playfield, cleared: int)
    requires Valid(pf)
    ensures Valid(r)
    ensures r.width == pf.width && r.height == pf.height && r.terminated == pf.terminated
    ensures forall c :: 0 <= c < pf.width ==> r.columns[c] == Compact(pf.columns[c], FullRows(pf.columns))
    ensures cleared == if pf.width == 0 then 0 else Count(FullRows(pf.columns))
    ensures pf.width > 0 ==> forall i :: 0 <= i < 32 ==> !RowFull(r.columns, i)
  {
    cleared := 0;
    var full := FullRows(pf.columns);
    ghost var f0 := full;
    ghost var k := 0;
    var index := 0;
    r := pf;
    ProgressStart(pf);
    while Positive(full)
      invariant Progress(pf, f0, k, full, r, index, cleared)
      decreases 32 - k
    {
      LowestBit(full);
      if And(full, One()) == One() {
        ProgressRemove(pf, f0, k, full, r, index, cleared);
        r := RemoveRow(r, index);
        cleared := cleared + 1;
      } else {
        ProgressSkip(pf, f0, k, full, r, index, cleared);
        index := index + 1;
      }
      full := Sar(full, 1);
      k := k + 1;
    }
    ProgressDone(pf, f0, k, full, r, index, cleared);
  }

  /**
   * `place`: drops the piece, clears the full rows and reports how many it
   * cleared. The game is lost, and stays lost, once what is left of the piece
   * reaches above the board's height.
   */
  method Place(pf: Playfield, p: Piece, col: int) returns (r: Result<(Playfield, int), PlayfieldError>)
    requires Valid(pf) && ValidPiece(p)
    requires Fits(pf, p, col) ==> DropHeight(pf, p, col) + p.height <= 31
    ensures !Fits(pf, p, col) <==> r == Failure(OutsidePlayfield)
    ensures r.Success? ==>
      var dropped := PlaceWithoutClearing(pf, p, col).value;
      var (q, cleared) := r.value;
      && Valid(q)
      && q.width == pf.width && q.height == pf.height
      && (forall c :: 0 <= c < pf.width ==> q.columns[c] == Compact(dropped.0.columns[c], FullRows(dropped.0.columns)))
      && cleared == Count(FullRows(dropped.0.columns))
      && (q.terminated <==> pf.terminated || dropped.1 - cleared > pf.height)
  {
    var dropped := PlaceWithoutClearing(pf, p, col);
    if dropped.Failure? {
      return Failure(dropped.error);
    }
    PlaceWithoutClearingValid(pf, p, col);
    var (placed, maxHeight) := dropped.value;
    var q, cleared := RemoveFull(placed);
    if maxHeight - cleared > q.height {
      q := q.(terminated := true);
    }
    return Success((q, cleared));
  }

  // ---------------------------------------------------------------- mirror image

  /** The board seen in a mirror: column c becomes column width-1-c. */
  function Mirror(pf: Playfield): Playfield {
    pf.(columns := Reverse(pf.columns), heightOf := Reverse(pf.heightOf))
  }

  lemma {:induction false} MirrorValid(pf: Playfield)
    requires Valid(pf)
    ensures Valid(Mirror(pf))
    ensures Mirror(Mirror(pf)) == pf
  {
    var cols := Reverse(pf.columns);
    ReversedBookkeeping(pf.columns);
    SumReverse(Counts(pf.columns));
    ValidWith(pf, cols, Reverse(pf.heightOf), pf.nFull);
    ReverseReverse(pf.columns);
    ReverseReverse(pf.heightOf);
  }

  /** Reading the columns right to left reverses their heights and counts. */
  lemma {:induction false} ReversedBookkeeping(cols: seq<Word>)
    ensures Heights(Reverse(cols)) == Reverse(Heights(cols))
    ensures Counts(Reverse(cols)) == Reverse(Counts(cols))
  {
  }
}

=== FILE: points.dfy ===
/**
 * Java arrays of doubles behind references, so that sharing an array and
 * copying it can be told apart, and the candidate points of the
 * cross-entropy method with their descending-performance order.
 */
module Points {

  /** A reference to a `double[]`. */
  type Ref = nat

  /** The contents of every array, by reference. */
  type Heap = map<Ref, seq<real>>

  /** A candidate parameter vector with its cached performance. */
  datatype Point = Point(vec: seq<real>, performance: real)

  /**
   * `new Point(vector)`: the point keeps a copy of the array's contents;
   * the performance starts at 0.
   */
  function NewPoint(h: Heap, vector: Ref): (p: Point)
    requires vector in h
    ensures p.vec == h[vector] && p.performance == 0.0
  {
    Point(h[vector], 0.0)
  }

  /**
   * Writing to the array a point was made from afterwards does not change the
   * point: it keeps the contents from before the write, and after a write that
   * changes the array it no longer agrees with it.
   */
  lemma {:induction false} PointOwnsItsVector(h: Heap, vector: Ref, contents: seq<real>)
    requires vector in h
    ensures var p := NewPoint(h, vector); var h' := h[vector := contents];
      && p.vec == h[vector]
      && (contents != h[vector] ==> p.vec != h'[vector])
  {
  }

  /** `Double.compare` on non-NaN values: -1, 0 or 1 by the order of the reals. */
  function CompareReals(x: real, y: real): (r: int)
    ensures r == -1 || r == 0 || r == 1
    ensures r < 0 <==> x < y
    ensures r == 0 <==> x == y
  {
    if x < y then -1 else if x > y then 1 else 0
  }

  /**
   * `compareTo`: the negated comparison of the performances, so that a point
   * with a higher performance sorts first.
   */
  function CompareTo(a: Point, b: Point): (r: int)
    ensures r < 0 <==> a.performance > b.performance
    ensures r == 0 <==> a.performance == b.performance
    ensures r > 0 <==> a.performance < b.performance
  {
    -CompareReals(a.performance, b.performance)
  }

  lemma {:induction false} CompareReflexive(a: Point)
    ensures CompareTo(a, a) == 0
  {
  }

  lemma {:induction false} CompareAntisymmetric(a: Point, b: Point)
    ensures CompareTo(a, b) == -CompareTo(b, a)
  {
  }

  /** Not after and not after gives not after: the order is a total preorder. */
  lemma {:induction false} CompareTransitive(a: Point, b: Point, c: Point)
    requires CompareTo(a, b) <= 0 && CompareTo(b, c) <= 0
    ensures CompareTo(a, c) <= 0
  {
  }

  lemma {:induction false} CompareTotal(a: Point, b: Point)
    ensures CompareTo(a, b) <= 0 || CompareTo(b, a) <= 0
  {
  }

  /** A list in the order an ascending sort by `compareTo` leaves it. */
  predicate SortedByCompare(ps: seq<Point>) {
    forall i, j :: 0 <= i < j < |ps| ==> CompareTo(ps[i], ps[j]) <= 0
  }

  /**
   * In a sorted list the first e points are the top performers: none of the
   * points after them performs better than any of them.
   */
  lemma {:induction false} SortedElitesAreBest(ps: seq<Point>, e: nat)
    requires SortedByCompare(ps) && e <= |ps|
    ensures forall i, j :: 0 <= i < e <= j < |ps| ==> ps[j].performance <= ps[i].performance
    ensures e > 0 ==> forall j :: 0 <= j < |ps| ==> ps[j].performance <= ps[0].performance
  {
    forall j | 0 <= j < |ps| && e > 0
      ensures ps[j].performance <= ps[0].performance
    {
      if j > 0 {
        assert CompareTo(ps[0], ps[j]) <= 0;
      }
    }
  }
}

=== FILE: seqs.dfy ===
/** Sums, reversal and maxima of integer sequences, shared by the board metrics and features. */
module Seqs {

  function Sum(s: seq<int>): int {
    if |s| == 0 then 0 else s[0] + Sum(s[1..])
  }

  /** The sequence read from its last element to its first. */
  function Reverse<T>(s: seq<T>): seq<T> {
    seq(|s|, i requires 0 <= i < |s| => s[|s| - 1 - i])
  }

  function Max(a: int, b: int): int {
    if a < b then b else a
  }

  function Min(a: int, b: int): int {
    if a < b then a else b
  }

  function Abs(x: int): nat {
    if x > 0 then x else -x
  }

  /** The largest element, 0 for the empty sequence and never below 0. */
  function MaxOrZero(s: seq<int>): (r: int)
    ensures r >= 0
    ensures forall i :: 0 <= i < |s| ==> s[i] <= r
  {
    if |s| == 0 then 0 else Max(MaxOrZero(s[..|s| - 1]), s[|s| - 1])
  }

  /** The largest element is attained unless it is the 0 the search starts from. */
  lemma {:induction false} MaxOrZeroAttained(s: seq<int>) returns (i: int)
    ensures MaxOrZero(s) == 0 || (0 <= i < |s| && s[i] == MaxOrZero(s))
    decreases |s|
  {
    i := 0;
    if |s| > 0 {
      var n := |s| - 1;
      if MaxOrZero(s) == s[n] {
        i := n;
      } else {
        i := MaxOrZeroAttained(s[..n]);
      }
    }
  }

  /** Any bound that is attained or 0, and lies above every element and 0, is the largest element. */
  lemma {:induction false} MaxOrZeroUnique(s: seq<int>, m: int, i: int)
    requires m >= 0 && forall j :: 0 <= j < |s| ==> s[j] <= m
    requires m == 0 || (0 <= i < |s| && s[i] == m)
    ensures m == MaxOrZero(s)
  {
    var k := MaxOrZeroAttained(s);
  }

  lemma {:induction false} SumAppend(a: seq<int>, b: seq<int>)
    ensures Sum(a + b) == Sum(a) + Sum(b)
    decreases |a|
  {
    if |a| == 0 {
      assert a + b == b;
    } else {
      assert (a + b)[1..] == a[1..] + b;
      SumAppend(a[1..], b);
    }
  }

  /** A sum is unchanged by reading its terms backwards. */
  lemma {:induction false} SumReverse(s: seq<int>)
    ensures Sum(Reverse(s)) == Sum(s)
    decreases |s|
  {
    if |s| > 0 {
      var n := |s|;
      assert Reverse(s) == [s[n - 1]] + Reverse(s[..n - 1]);
      SumReverse(s[..n - 1]);
      assert s == s[..n - 1] + [s[n - 1]];
      SumAppend(s[..n - 1], [s[n - 1]]);
      SumAppend([s[n - 1]], Reverse(s[..n - 1]));
    }
  }

  /** Adding two sequences term by term adds their sums. */
  lemma {:induction false} SumPointwise(a: seq<int>, b: seq<int>, c: seq<int>)
    requires |a| == |b| == |c|
    requires forall i :: 0 <= i < |c| ==> c[i] == a[i] + b[i]
    ensures Sum(c) == Sum(a) + Sum(b)
    decreases |c|
  {
    if |c| > 0 {
      SumPointwise(a[1..], b[1..], c[1..]);
    }
  }

  lemma {:induction false} SumConstant(s: seq<int>, k: int)
    requires forall i :: 0 <= i < |s| ==> s[i] == k
    ensures Sum(s) == |s| * k
    decreases |s|
  {
    if |s| > 0 {
      SumConstant(s[1..], k);
    }
  }

  /** A sum of terms between 0 and k lies between 0 and |s|·k. */
  lemma {:induction false} SumBounds(s: seq<int>, k: int)
    requires forall i :: 0 <= i < |s| ==> 0 <= s[i] <= k
    ensures 0 <= Sum(s) <= |s| * k
    decreases |s|
  {
    if |s| > 0 {
      SumBounds(s[1..], k);
      assert |s| * k == k + (|s| - 1) * k;
    }
  }

  lemma {:induction false} SumNonnegative(s: seq<int>)
    requires forall i :: 0 <= i < |s| ==> s[i] >= 0
    ensures Sum(s) >= 0
    decreases |s|
  {
    if |s| > 0 {
      SumNonnegative(s[1..]);
    }
  }

  lemma {:induction false} ReverseReverse<T>(s: seq<T>)
    ensures Reverse(Reverse(s)) == s
  {
  }
}

=== FILE: small_features.dfy ===
/**
 * A small feature set of eight entries: aggregate height with and without the
 * filled cells, the maximum height, a bumpiness measure, and the four board
 * metrics.
 */
module SmallFeatures {
  import opened Seqs
  import opened Playfields
  import opened BoardMetrics

  /** Always eight features, whatever the board. */
  function Dimension(pf: Playfield): int {
    8
  }

  /** Height steps between neighbouring positions of p. */
  function Steps(p: seq<int>): seq<int> {
    if |p| == 0 then []
    else seq(|p| - 1, i requires 0 <= i < |p| - 1 => Abs(p[i] - p[i + 1]))
  }

  /**
   * The first four entries as the code computes them: the maximum is reset on
   * every turn of its loop, so it ends as the last column's height (or 0), and
   * entry 3 is overwritten on every turn, so it ends as the last height step.
   */
  function HeightFeaturesAsWritten(h: seq<int>, nFull: int): seq<int>
    requires 2 <= |h|
  {
    var w := |h|;
    [Sum(h) - nFull, Sum(h), Max(0, h[w - 1]), Abs(h[w - 2] - h[w - 1])]
  }

  /**
   * The first four entries as evidently intended: the maximum height over all
   * columns, and the bumpiness summed over every height step, the two walls
   * counting as steps down to the floor.
   */
  function HeightFeatures(h: seq<int>, nFull: int): seq<int>
    requires 2 <= |h|
  {
    var w := |h|;
    [Sum(h) - nFull, Sum(h), MaxOrZero(h), h[0] + Sum(Steps(h)) + h[w - 1]]
  }

  /**
   * `extract` as written, with the height features and the well sum as the
   * code computes them. The board must be at least two columns wide, since
   * the well sum reads two columns.
   */
  method Extract(pf: Playfield, output: seq<int>) returns (r: seq<int>)
    requires |pf.heightOf| == |pf.columns| == pf.width && 2 <= pf.width && Dimension(pf) <= |output|
    ensures |r| == |output|
    ensures r[..4] == HeightFeaturesAsWritten(pf.heightOf, pf.nFull)
    ensures r[4] == HoleSums(pf.columns) && r[5] == ColTrans(pf.columns)
    ensures r[6] == RowTrans(pf.columns) && r[7] == WellSumAsWritten(pf.heightOf)
    ensures r[Dimension(pf)..] == output[Dimension(pf)..]
  {
    var h := pf.heightOf;
    var width := pf.width;
    r := output[0 := -pf.nFull][1 := 0];
    var maxh := 0;
    for i := 0 to width
      invariant |r| == |output|
      invariant r[0] == Sum(h[..i]) - pf.nFull && r[1] == Sum(h[..i])
      invariant maxh == if i == 0 then 0 else Max(0, h[i - 1])
      invariant r[2..] == output[2..]
    {
      maxh := 0;
      maxh := if h[i] > maxh then h[i] else maxh;
      assert h[..i + 1] == h[..i] + [h[i]];
      SumAppend(h[..i], [h[i]]);
      r := r[0 := r[0] + h[i]][1 := r[1] + h[i]];
    }
    assert h[..width] == h;
    r := r[2 := maxh];
    r := r[3 := h[0] + h[width - 1]];
    for i := 0 to width - 1
      invariant |r| == |output|
      invariant r[3] == if i == 0 then h[0] + h[width - 1] else Abs(h[i - 1] - h[i])
      invariant r[..3] == [Sum(h) - pf.nFull, Sum(h), Max(0, h[width - 1])]
      invariant r[4..] == output[4..]
    {
      r := r[3 := Abs(h[i] - h[i + 1])];
    }
    var head := r[..4];
    assert head == HeightFeaturesAsWritten(h, pf.nFull);
    var holes := ComputeHoleSums(pf.columns);
    var wells := ComputeWellSumAsWritten(h);
    r := r[4 := holes][5 := ColTrans(pf.columns)][6 := RowTrans(pf.columns)][7 := wells];
    assert r[..4] == head;
  }

  /**
   * The board's feature vector as evidently intended: the intended height
   * features, and the well sum with its right-wall term the right way round.
   */
  function ExtractIntended(pf: Playfield, output: seq<int>): (r: seq<int>)
    requires |pf.heightOf| == |pf.columns| == pf.width && 2 <= pf.width && Dimension(pf) <= |output|
    ensures |r| == |output|
    ensures r[..4] == HeightFeatures(pf.heightOf, pf.nFull)
    ensures r[4..8] == [HoleSums(pf.columns), ColTrans(pf.columns), RowTrans(pf.columns), WellSum(pf.heightOf)]
    ensures r[8..] == output[8..]
  {
    var heights := HeightFeatures(pf.heightOf, pf.nFull);
    var metrics := [HoleSums(pf.columns), ColTrans(pf.columns), RowTrans(pf.columns), WellSum(pf.heightOf)];
    var r := heights + metrics + output[8..];
    assert r[..4] == heights && r[4..8] == metrics && r[8..] == output[8..];
    r
  }

  // ---------------------------------------------------------------- properties

  /** The code as written reads a board and its mirror image differently. */
  lemma {:induction false} AsWrittenNotMirrorInvariant()
    ensures HeightFeaturesAsWritten([4, 0], 0) == [4, 4, 0, 4]
    ensures HeightFeaturesAsWritten([0, 4], 0) == [4, 4, 4, 4]
    ensures HeightFeatures([4, 0], 0) == [4, 4, 4, 8] == HeightFeatures([0, 4], 0)
  {
    assert Steps([4, 0]) == [4];
    assert Steps([0, 4]) == [4];
    assert [4, 0][..1] == [4] && [0, 4][..1] == [0];
    assert MaxOrZero([4]) == 4 && MaxOrZero([0]) == 0;
    assert Sum([4, 0]) == 4 && Sum([0, 4]) == 4 && Sum([4]) == 4;
  }

  lemma {:induction false} StepsReverse(h: seq<int>)
    ensures Steps(Reverse(h)) == Reverse(Steps(h))
  {
    if |h| > 0 {
      var a := Steps(Reverse(h));
      var b := Reverse(Steps(h));
      assert |a| == |b| == |h| - 1;
      forall i | 0 <= i < |h| - 1
        ensures a[i] == b[i]
      {
        ReversedStepAt(h, i);
      }
    }
  }

  lemma {:induction false} ReversedStepAt(h: seq<int>, i: nat)
    requires i + 1 < |h|
    ensures Steps(Reverse(h))[i] == Reverse(Steps(h))[i]
  {
    var n := |h|;
    var r := Reverse(h);
    var sh := Steps(h);
    assert |r| == n && |sh| == n - 1;
    assert Steps(r)[i] == Abs(r[i] - r[i + 1]);
    assert r[i] == h[n - 1 - i] && r[i + 1] == h[n - 2 - i];
    assert Reverse(sh)[i] == sh[n - 2 - i] == Abs(h[n - 2 - i] - h[n - 1 - i]);
  }

  /** The intended height features are the same for a board and its mirror image. */
  lemma {:induction false} IntendedMirrorInvariant(h: seq<int>, nFull: int)
    requires 2 <= |h|
    ensures HeightFeatures(Reverse(h), nFull) == HeightFeatures(h, nFull)
  {
    SumReverse(h);
    StepsReverse(h);
    SumReverse(Steps(h));
    var m := MaxOrZero(h);
    var i := MaxOrZeroAttained(h);
    MaxOrZeroUnique(Reverse(h), m, if m == 0 then 0 else |h| - 1 - i);
  }

  /**
   * With non-negative heights, the intended bumpiness is the sum of all height
   * steps across the board with a wall of height 0 on either side.
   */
  lemma {:induction false} IntendedBumpinessWithWalls(h: seq<int>, nFull: int)
    requires 2 <= |h| && forall c :: 0 <= c < |h| ==> h[c] >= 0
    ensures HeightFeatures(h, nFull)[3] == Sum(Steps([0] + h + [0]))
  {
    var w := |h|;
    StepsFramed(h);
    SumAppend([h[0]] + Steps(h), [h[w - 1]]);
    SumAppend([h[0]], Steps(h));
  }

  /** Framing non-negative heights by two empty walls adds the outer columns' heights as steps. */
  lemma {:induction false} StepsFramed(h: seq<int>)
    requires 2 <= |h| && h[0] >= 0 && h[|h| - 1] >= 0
    ensures Steps([0] + h + [0]) == [h[0]] + Steps(h) + [h[|h| - 1]]
  {
    var p := [0] + h + [0];
    var q := [h[0]] + Steps(h) + [h[|h| - 1]];
    forall i | 0 <= i < |q|
      ensures Steps(p)[i] == q[i]
    {
      FramedStepAt(h, i);
    }
  }

  lemma {:induction false} FramedStepAt(h: seq<int>, i: nat)
    requires 2 <= |h| && h[0] >= 0 && h[|h| - 1] >= 0 && i <= |h|
    ensures Steps([0] + h + [0])[i] == ([h[0]] + Steps(h) + [h[|h| - 1]])[i]
  {
    var p := [0] + h + [0];
    var sh := Steps(h);
    var q := [h[0]] + sh + [h[|h| - 1]];
    var n := |h|;
    assert |sh| == n - 1 && |p| == n + 2;
    assert Steps(p)[i] == Abs(p[i] - p[i + 1]);
    if i == 0 {
      assert q[0] == h[0] && p[0] == 0 && p[1] == h[0];
    } else if i == n {
      assert q[n] == h[n - 1] && p[n] == h[n - 1] && p[n + 1] == 0;
    } else {
      assert q[i] == sh[i - 1] == Abs(h[i - 1] - h[i]);
      assert p[i] == h[i - 1] && p[i + 1] == h[i];
    }
  }

  /** The intended maximum is reached by some column and no column exceeds it. */
  lemma {:induction false} IntendedMaximum(h: seq<int>, nFull: int)
    requires 2 <= |h| && forall c :: 0 <= c < |h| ==> h[c] >= 0
    ensures forall c :: 0 <= c < |h| ==> h[c] <= HeightFeatures(h, nFull)[2]
    ensures exists c :: 0 <= c < |h| && h[c] == HeightFeatures(h, nFull)[2]
  {
    var i := MaxOrZeroAttained(h);
    if MaxOrZero(h) == 0 {
      assert h[0] == 0;
    } else {
      assert h[i] == HeightFeatures(h, nFull)[2];
    }
  }
}

=== FILE: stats.dfy ===
/**
 * Sums, means and squared deviations over the reals, the arithmetic under
 * the solver's statistics. Java's `double` rounding is not modelled.
 */
module RealStats {

  function Sum(xs: seq<real>): real {
    if |xs| == 0 then 0.0 else Sum(xs[..|xs| - 1]) + xs[|xs| - 1]
  }

  /** The mean, 0 for no values. */
  function Mean(xs: seq<real>): real {
    if |xs| == 0 then 0.0 else Sum(xs) / (|xs| as real)
  }

  function Square(x: real): (r: real)
    ensures r >= 0.0
  {
    x * x
  }

  /** Sum of the squared deviations from c. */
  function SumSq(xs: seq<real>, c: real): (r: real)
    ensures r >= 0.0
  {
    if |xs| == 0 then 0.0 else SumSq(xs[..|xs| - 1], c) + Square(xs[|xs| - 1] - c)
  }

  /** Sum of the squares. */
  function SumSquares(xs: seq<real>): real {
    if |xs| == 0 then 0.0 else SumSquares(xs[..|xs| - 1]) + Square(xs[|xs| - 1])
  }

  /** The two-pass sample variance: squared deviations from the mean over n-1. */
  function SampleVariance(xs: seq<real>): real
    requires |xs| >= 2
  {
    SumSq(xs, Mean(xs)) / ((|xs| - 1) as real)
  }

  lemma {:induction false} SumSnoc(xs: seq<real>, x: real)
    ensures Sum(xs + [x]) == Sum(xs) + x
    ensures SumSq(xs + [x], 0.0) == SumSq(xs, 0.0) + Square(x)
  {
    assert (xs + [x])[..|xs|] == xs;
  }

  lemma {:induction false} SumSqSnoc(xs: seq<real>, x: real, c: real)
    ensures SumSq(xs + [x], c) == SumSq(xs, c) + Square(x - c)
  {
    assert (xs + [x])[..|xs|] == xs;
  }

  /** Σx² - 2cΣx + n·c², what the squared deviations from c expand into. */
  function Expansion(squares: real, sum: real, n: real, c: real): real {
    squares - 2.0 * c * sum + n * c * c
  }

  lemma {:induction false} ExpandStep(a: real, b: real, sum: real, x: real, c: real, n: real)
    requires a == Expansion(b, sum, n, c)
    ensures a + Square(x - c) == Expansion(b + Square(x), sum + x, n + 1.0, c)
  {
  }

  /** Squared deviations from c expand into the sum of squares, the sum and c. */
  lemma {:induction false} SumSqExpand(xs: seq<real>, c: real)
    ensures SumSq(xs, c) == Expansion(SumSquares(xs), Sum(xs), |xs| as real, c)
    decreases |xs|
  {
    if |xs| > 0 {
      var ys := xs[..|xs| - 1];
      SumSqExpand(ys, c);
      ExpandStep(SumSq(ys, c), SumSquares(ys), Sum(ys), xs[|xs| - 1], c, |ys| as real);
    }
  }

  /** Deviations are smallest around the mean: moving the centre away by e adds n·e². */
  lemma {:induction false} SumSqAroundMean(xs: seq<real>, m: real, c: real)
    requires |xs| > 0 && m == Mean(xs)
    ensures SumSq(xs, c) == SumSq(xs, m) + Spread(|xs| as real, m, c)
  {
    SumSqExpand(xs, c);
    SumSqExpand(xs, m);
    ExpansionAroundMean(xs, m, c);
    Link(SumSq(xs, c), SumSq(xs, m), Expansion(SumSquares(xs), Sum(xs), |xs| as real, c),
      Expansion(SumSquares(xs), Sum(xs), |xs| as real, m), Spread(|xs| as real, m, c));
  }

  lemma {:induction false} ExpansionAroundMean(xs: seq<real>, m: real, c: real)
    requires m == Mean(xs)
    ensures Expansion(SumSquares(xs), Sum(xs), |xs| as real, c)
      == Expansion(SumSquares(xs), Sum(xs), |xs| as real, m) + Spread(|xs| as real, m, c)
  {
    MeanTimesCount(xs, m);
    AroundMeanAlgebra(SumSquares(xs), Sum(xs), |xs| as real, m, c);
  }

  lemma {:induction false} Link(a: real, b: real, ea: real, eb: real, d: real)
    requires a == ea && b == eb && ea == eb + d
    ensures a == b + d
  {
  }

  lemma {:induction false} MeanTimesCount(xs: seq<real>, m: real)
    requires m == Mean(xs)
    ensures Sum(xs) == (|xs| as real) * m
  {
  }

  /** n·(a - b)², the extra squared deviation of n values centred at a when measured from b. */
  function Spread(n: real, a: real, b: real): real {
    n * Square(a - b)
  }

  lemma {:induction false} AroundMeanAlgebra(q: real, sum: real, n: real, m: real, c: real)
    requires sum == n * m
    ensures Expansion(q, sum, n, c) == Expansion(q, sum, n, m) + Spread(n, m, c)
  {
    assert n * Square(m - c) == n * m * m - 2.0 * c * (n * m) + n * c * c;
  }

  /**
   * One step of Welford's online update as the loop writes it, for the n-th
   * value x: delta is the distance of x from the mean so far, m' the mean moved
   * by delta over n, and s' the squared deviations grown by delta times the
   * distance of x from the new mean. Given the mean and the squared deviations
   * of the values so far, the updated pair is the mean and the squared
   * deviations of the values with x appended.
   */
  lemma {:induction false} WelfordStep(xs: seq<real>, x: real, n: nat, m: real, s: real, delta: real, m': real, s': real)
    requires n == |xs| + 1 && m == Mean(xs) && s == SumSq(xs, m)
    requires delta == x - m && m' == m + delta / (n as real) && s' == s + delta * (x - m')
    ensures m' == Mean(xs + [x]) && s' == SumSq(xs + [x], m')
  {
    WelfordMean(xs, x, n, m, delta, m');
    if |xs| == 0 {
      WelfordFirst(xs, x, n, m, s, delta, m', s');
    } else {
      WelfordLater(xs, x, n, m, s, delta, m', s');
    }
  }

  lemma {:induction false} WelfordMean(xs: seq<real>, x: real, n: nat, m: real, delta: real, m': real)
    requires n == |xs| + 1 && m == Mean(xs)
    requires delta == x - m && m' == m + delta / (n as real)
    ensures m' == Mean(xs + [x])
  {
    MeanTimesCount(xs, m);
    MeanStep(Sum(xs), |xs|, n, m, x, delta, m');
    SumSnoc(xs, x);
    MeanOf(xs + [x], Sum(xs) + x, n);
  }

  /** The first value: the mean jumps to it and no deviation is added. */
  lemma {:induction false} WelfordFirst(xs: seq<real>, x: real, n: nat, m: real, s: real, delta: real, m': real, s': real)
    requires |xs| == 0 && n == 1 && m == Mean(xs) && s == SumSq(xs, m)
    requires delta == x - m && m' == m + delta / (n as real) && s' == s + delta * (x - m')
    ensures s' == SumSq(xs + [x], m')
  {
    assert m' == x;
    SumSqSnoc(xs, x, x);
  }

  /** A later value: the old deviations move with the mean, and the new value adds its own. */
  lemma {:induction false} WelfordLater(xs: seq<real>, x: real, n: nat, m: real, s: real, delta: real, m': real, s': real)
    requires |xs| > 0 && n == |xs| + 1 && m == Mean(xs) && s == SumSq(xs, m)
    requires delta == x - m && m' == m + delta / (n as real) && s' == s + delta * (x - m')
    ensures s' == SumSq(xs + [x], m')
  {
    SumSqSnoc(xs, x, m');
    SumSqAroundMean(xs, m, m');
    DeviationStep(|xs|, n, m, x, delta, m');
    WelfordCombine(s, SumSq(xs, m'), SumSq(xs + [x], m'), Spread(|xs| as real, m, m'), Square(x - m'),
      delta * (x - m'));
  }

  lemma {:induction false} WelfordCombine(s: real, before: real, after: real, spread: real, last: real, increment: real)
    requires before == s + spread && after == before + last && spread + last == increment
    ensures s + increment == after
  {
  }

  lemma {:induction false} MeanOf(ys: seq<real>, sum: real, n: nat)
    requires |ys| == n && n > 0 && Sum(ys) == sum
    ensures Mean(ys) == sum / (n as real)
  {
  }

  /** Moving the mean of k values by delta over k+1 gives the mean of the k+1 values. */
  lemma {:induction false} MeanStep(sum: real, k: nat, n: nat, m: real, x: real, delta: real, m': real)
    requires n == k + 1 && sum == (k as real) * m
    requires delta == x - m && m' == m + delta / (n as real)
    ensures m' == (sum + x) / (n as real)
  {
    var r := n as real;
    assert r * m' == r * m + delta;
  }

  /** The algebra of the update: the deviation added is k·e² + (k·e)² for the mean's move e. */
  lemma {:induction false} DeviationStep(k: nat, n: nat, m: real, x: real, delta: real, m': real)
    requires n == k + 1 && delta == x - m && m' == m + delta / (n as real)
    ensures Spread(k as real, m, m') + Square(x - m') == delta * (x - m')
  {
    var r := k as real;
    var e := delta / (r + 1.0);
    assert m' == m + e;
    assert delta == (r + 1.0) * e;
    assert x - m' == r * e;
    assert r * Square(m - m') + Square(x - m') == r * e * e + r * r * e * e;
    assert delta * (x - m') == (r + 1.0) * e * (r * e);
  }

  // ---------------------------------------------------------------- order

  /** Removing the element at j from a sum. */
  lemma {:induction false} SumRemove(xs: seq<real>, j: nat, c: real)
    requires j < |xs|
    ensures Sum(xs) == Sum(xs[..j] + xs[j + 1..]) + xs[j]
    ensures SumSq(xs, c) == SumSq(xs[..j] + xs[j + 1..], c) + Square(xs[j] - c)
    decreases |xs|
  {
    var n := |xs| - 1;
    var rest := xs[..j] + xs[j + 1..];
    if j < n {
      var ys := xs[..n];
      SumRemove(ys, j, c);
      assert rest[..n - 1] == ys[..j] + ys[j + 1..];
      assert rest[n - 1] == xs[n];
      assert Sum(rest) == Sum(rest[..n - 1]) + rest[n - 1];
      assert SumSq(rest, c) == SumSq(rest[..n - 1], c) + Square(rest[n - 1] - c);
    } else {
      assert rest == xs[..n];
    }
  }

  /** The last value of xs sits at some j in a permutation ys; the rest are a permutation of each other. */
  lemma {:induction false} PermutationLast(xs: seq<real>, ys: seq<real>) returns (j: nat)
    requires multiset(xs) == multiset(ys) && |xs| > 0
    ensures j < |ys| && ys[j] == xs[|xs| - 1]
    ensures multiset(xs[..|xs| - 1]) == multiset(ys[..j] + ys[j + 1..])
  {
    var n := |xs| - 1;
    var x := xs[n];
    MultisetRemoveAt(xs, n);
    assert xs[..n] + xs[n + 1..] == xs[..n];
    assert x in multiset(ys);
    j :| 0 <= j < |ys| && ys[j] == x;
    MultisetRemoveAt(ys, j);
  }

  lemma {:induction false} MultisetRemoveAt(s: seq<real>, j: nat)
    requires j < |s|
    ensures multiset(s[..j] + s[j + 1..]) == multiset(s) - multiset{s[j]}
  {
    assert s == s[..j] + [s[j]] + s[j + 1..];
  }

  /** Sums and squared deviations do not depend on the order of the values. */
  lemma {:induction false} SumPermutation(xs: seq<real>, ys: seq<real>, c: real)
    requires multiset(xs) == multiset(ys)
    ensures Sum(xs) == Sum(ys) && SumSq(xs, c) == SumSq(ys, c)
    decreases |xs|
  {
    if |xs| > 0 {
      var j := PermutationLast(xs, ys);
      SumPermutation(xs[..|xs| - 1], ys[..j] + ys[j + 1..], c);
      SumRemove(ys, j, c);
    } else {
      assert |ys| == |multiset(ys)| == 0;
    }
  }

  /** The mean and the sample variance do not depend on the order of the values. */
  lemma {:induction false} StatisticsPermutation(xs: seq<real>, ys: seq<real>)
    requires multiset(xs) == multiset(ys) && |xs| >= 2
    ensures |ys| == |xs|
    ensures Mean(xs) == Mean(ys) && SampleVariance(xs) == SampleVariance(ys)
  {
    assert |xs| == |multiset(xs)| == |ys|;
    SumPermutation(xs, ys, 0.0);
    SumPermutation(xs, ys, Mean(xs));
  }

  /** Squared deviations from a value every element equals vanish. */
  lemma {:induction false} SumSqConstant(xs: seq<real>, c: real)
    requires forall i :: 0 <= i < |xs| ==> xs[i] == c
    ensures SumSq(xs, c) == 0.0
    decreases |xs|
  {
    if |xs| > 0 {
      SumSqConstant(xs[..|xs| - 1], c);
      assert Square(xs[|xs| - 1] - c) == 0.0;
    }
  }

  /** Values that all equal c add up to n·c. */
  lemma {:induction false} ConstantSum(xs: seq<real>, c: real)
    requires forall k :: 0 <= k < |xs| ==> xs[k] == c
    ensures Sum(xs) == (|xs| as real) * c
    decreases |xs|
  {
    if |xs| > 0 {
      ConstantSum(xs[..|xs| - 1], c);
    }
  }

  /** Values that all equal c have mean c. */
  lemma {:induction false} ConstantMean(xs: seq<real>, c: real)
    requires |xs| > 0 && forall k :: 0 <= k < |xs| ==> xs[k] == c
    ensures Mean(xs) == c
  {
    ConstantSum(xs, c);
  }
}

=== FILE: symmetric_bertsekas.dfy ===
/**
 * The symmetric variant of the Bertsekas feature set: column heights are
 * combined with those of their mirror-image columns, so that a board and its
 * mirror image give the same feature vector.
 */
module SymmetricBertsekas {
  import opened Seqs
  import opened Playfields

  /** The number of features: one per column, then the aggregate height and the maximum height. */
  function Dimension(pf: Playfield): int {
    pf.width + 2
  }

  /** Column w and its mirror image, added up, for w below half the width. */
  function PairSums(h: seq<int>): seq<int> {
    seq(|h| / 2, w requires 0 <= w < |h| / 2 => h[w] + h[|h| - 1 - w])
  }

  /** The taller of column w and its mirror image. */
  function PairMaxes(h: seq<int>): seq<int> {
    seq(|h| / 2, w requires 0 <= w < |h| / 2 => Max(h[w], h[|h| - 1 - w]))
  }

  /** The height step between columns w and w+1, added to the mirrored step. */
  function StepTerm(h: seq<int>, w: nat): int
    requires w + 2 <= |h|
  {
    Abs(h[w + 1] - h[w]) + Abs(h[|h| - 1 - w] - h[|h| - 2 - w])
  }

  /**
   * Entry i of the vector `extract` leaves in an output buffer `out`: paired
   * heights in the first half, paired height steps after them, the step
   * across the middle at width-1, the aggregate height less the filled cells at
   * width and the largest height at width+1. Other positions keep what the
   * buffer held.
   */
  function Feature(h: seq<int>, nFull: int, out: seq<int>, i: nat): int
    requires 2 <= |h| && |h| + 2 <= |out| && i < |out|
  {
    var width := |h|;
    var half := width / 2;
    if i < half then PairSums(h)[i]
    else if i < 2 * half - 1 then StepTerm(h, i - half)
    else if i == width - 1 then Abs(h[half] - h[half - 1])
    else if i == width then Sum(PairSums(h)) - nFull
    else if i == width + 1 then MaxOrZero(PairMaxes(h))
    else out[i]
  }

  function Features(h: seq<int>, nFull: int, out: seq<int>): (r: seq<int>)
    requires 2 <= |h| && |h| + 2 <= |out|
    ensures |r| == |out|
    ensures forall i :: 0 <= i < |out| ==> r[i] == Feature(h, nFull, out, i)
  {
    seq(|out|, i requires 0 <= i < |out| => Feature(h, nFull, out, i))
  }

  /** Taking in pair w extends the running total and the running maximum. */
  lemma {:induction false} PairStep(h: seq<int>, w: nat)
    requires w < |h| / 2
    ensures Sum(PairSums(h)[..w + 1]) == Sum(PairSums(h)[..w]) + h[w] + h[|h| - w - 1]
    ensures MaxOrZero(PairMaxes(h)[..w + 1]) == Max(Max(MaxOrZero(PairMaxes(h)[..w]), h[w]), h[|h| - w - 1])
  {
    var sums := PairSums(h);
    var maxes := PairMaxes(h);
    assert maxes[..w + 1][..w] == maxes[..w];
    assert sums[..w + 1] == sums[..w] + [sums[w]];
    SumAppend(sums[..w], [sums[w]]);
  }

  /**
   * The first loop of `extract`: paired heights into the first half, their
   * total added to the aggregate entry, and the running maximum returned.
   */
  method PairLoop(h: seq<int>, nFull: int, output: seq<int>) returns (r: seq<int>, maxh: int)
    requires 2 <= |h| && |h| + 2 <= |output|
    ensures |r| == |output|
    ensures maxh == MaxOrZero(PairMaxes(h))
    ensures r[|h|] == Sum(PairSums(h)) - nFull
    ensures forall j :: 0 <= j < |h| / 2 ==> r[j] == PairSums(h)[j]
    ensures forall j :: |h| / 2 <= j < |r| && j != |h| ==> r[j] == output[j]
  {
    var width := |h|;
    ghost var sums := PairSums(h);
    ghost var maxes := PairMaxes(h);
    maxh := 0;
    r := output[width := -nFull];
    for w := 0 to width / 2
      invariant |r| == |output|
      invariant maxh == MaxOrZero(maxes[..w])
      invariant r[width] == Sum(sums[..w]) - nFull
      invariant forall j :: 0 <= j < w ==> r[j] == sums[j]
      invariant forall j :: w <= j < |r| && j != width ==> r[j] == output[j]
    {
      var a := h[w];
      var b := h[width - w - 1];
      r := r[w := a + b];
      PairStep(h, w);
      maxh := if maxh > a then maxh else a;
      maxh := if maxh > b then maxh else b;
      r := r[width := r[width] + a + b];
    }
    assert sums[..width / 2] == sums && maxes[..width / 2] == maxes;
  }

  /** The second loop of `extract`: the paired height steps after the first half. */
  method StepLoop(h: seq<int>, output: seq<int>) returns (r: seq<int>)
    requires 2 <= |h| && |h| + 2 <= |output|
    ensures |r| == |output|
    ensures forall j :: 0 <= j < |h| / 2 - 1 ==> r[|h| / 2 + j] == StepTerm(h, j)
    ensures forall j :: 0 <= j < |r| && !(|h| / 2 <= j < 2 * (|h| / 2) - 1) ==> r[j] == output[j]
  {
    var width := |h|;
    var half := width / 2;
    r := output;
    for w := 0 to half - 1
      invariant |r| == |output|
      invariant forall j :: 0 <= j < w ==> r[half + j] == StepTerm(h, j)
      invariant forall j :: 0 <= j < |r| && !(half <= j < half + w) ==> r[j] == output[j]
    {
      r := r[half + w := Abs(h[w + 1] - h[w]) + Abs(h[width - w - 1] - h[width - w - 2])];
    }
  }

  /**
   * `extract`: the first loop fills the paired heights while accumulating the
   * aggregate height and the maximum, the second the paired height steps.
   * The board must be at least two columns wide.
   */
  method Extract(pf: Playfield, output: seq<int>) returns (r: seq<int>)
    requires |pf.heightOf| == pf.width && 2 <= pf.width && pf.width + 2 <= |output|
    ensures r == Features(pf.heightOf, pf.nFull, output)
  {
    var h := pf.heightOf;
    var width := pf.width;
    var half := width / 2;
    var maxh;
    r, maxh := PairLoop(h, pf.nFull, output);
    r := StepLoop(h, r);
    r := r[width - 1 := Abs(h[half] - h[half - 1])];
    r := r[width + 1 := maxh];
    forall i | 0 <= i < |r|
      ensures r[i] == Feature(h, pf.nFull, output, i)
    {
    }
  }

  // ---------------------------------------------------------------- properties

  /**
   * On an even-width board the paired sums cover every column once, so the
   * aggregate entry is the total height less the filled cells.
   */
  lemma {:induction false} EvenWidthAggregate(h: seq<int>, nFull: int, out: seq<int>)
    requires 2 <= |h| && |h| + 2 <= |out| && |h| % 2 == 0
    ensures Features(h, nFull, out)[|h|] == Sum(h) - nFull
  {
    PairSumsTotal(h);
  }

  /** On an even-width board the pairs cover every column once. */
  lemma {:induction false} PairSumsTotal(h: seq<int>)
    requires |h| % 2 == 0
    ensures Sum(PairSums(h)) == Sum(h)
  {
    var half := |h| / 2;
    PairSumsSplit(h);
    SumPointwise(h[..half], Reverse(h[half..]), PairSums(h));
    SumReverse(h[half..]);
    assert h == h[..half] + h[half..];
    SumAppend(h[..half], h[half..]);
  }

  /** On an even-width board pair w adds column w of the left half to column w of the reversed right half. */
  lemma {:induction false} PairSumsSplit(h: seq<int>)
    requires |h| % 2 == 0
    ensures forall w :: 0 <= w < |h| / 2 ==> PairSums(h)[w] == h[..|h| / 2][w] + Reverse(h[|h| / 2..])[w]
  {
    var half := |h| / 2;
    forall w | 0 <= w < half
      ensures PairSums(h)[w] == h[..half][w] + Reverse(h[half..])[w]
    {
      assert Reverse(h[half..])[w] == h[half..][half - 1 - w] == h[|h| - 1 - w];
    }
  }

  /** On an even-width board the maximum entry is the height of the tallest column. */
  lemma {:induction false} EvenWidthMaximum(h: seq<int>, nFull: int, out: seq<int>)
    requires 2 <= |h| && |h| + 2 <= |out| && |h| % 2 == 0
    ensures Features(h, nFull, out)[|h| + 1] == MaxOrZero(h)
  {
    PairMaxesMaximum(h);
  }

  lemma {:induction false} PairMaxesMaximum(h: seq<int>)
    requires |h| % 2 == 0
    ensures MaxOrZero(PairMaxes(h)) == MaxOrZero(h)
  {
    var maxes := PairMaxes(h);
    var m := MaxOrZero(maxes);
    PairMaxesBound(h);
    var w := MaxOrZeroAttained(maxes);
    if m == 0 {
      MaxOrZeroUnique(h, m, 0);
    } else {
      var j := PairWitness(h, w);
      MaxOrZeroUnique(h, m, j);
    }
  }

  /** The column of pair w whose height is the pair's maximum. */
  lemma {:induction false} PairWitness(h: seq<int>, w: int) returns (j: int)
    requires 0 <= w < |h| / 2
    ensures 0 <= j < |h| && h[j] == PairMaxes(h)[w]
  {
    j := if h[w] >= h[|h| - 1 - w] then w else |h| - 1 - w;
  }

  /** On an even-width board every column is covered by a pair, so none is above the largest pair maximum. */
  lemma {:induction false} PairMaxesBound(h: seq<int>)
    requires |h| % 2 == 0
    ensures forall i :: 0 <= i < |h| ==> h[i] <= MaxOrZero(PairMaxes(h))
  {
    var width := |h|;
    var half := width / 2;
    var maxes := PairMaxes(h);
    forall i | 0 <= i < width
      ensures h[i] <= MaxOrZero(maxes)
    {
      if i < half {
        assert maxes[i] >= h[i];
      } else {
        assert maxes[width - 1 - i] >= h[i];
      }
    }
  }

  /** On an even-width board, reading the columns right to left gives the same features. */
  lemma {:induction false} MirrorInvariant(h: seq<int>, nFull: int, out: seq<int>)
    requires 2 <= |h| && |h| + 2 <= |out| && |h| % 2 == 0
    ensures Features(Reverse(h), nFull, out) == Features(h, nFull, out)
  {
    var g := Reverse(h);
    assert PairSums(g) == PairSums(h);
    assert PairMaxes(g) == PairMaxes(h);
    forall w | 0 <= w < |h| / 2 - 1
      ensures StepTerm(g, w) == StepTerm(h, w)
    {
    }
  }

  /**
   * Every position below the dimension is written on an even-width board; on
   * an odd-width board position width-2 keeps the buffer's old content, and no
   * position from the dimension on is ever written.
   */
  lemma {:induction false} Coverage(pf: Playfield, out1: seq<int>, out2: seq<int>)
    requires |pf.heightOf| == pf.width && 2 <= pf.width
    requires Dimension(pf) <= |out1| && |out1| == |out2|
    ensures var f1 := Features(pf.heightOf, pf.nFull, out1);
      var f2 := Features(pf.heightOf, pf.nFull, out2);
      && (pf.width % 2 == 0 ==> f1[..Dimension(pf)] == f2[..Dimension(pf)])
      && (pf.width % 2 == 1 ==> f1[pf.width - 2] == out1[pf.width - 2])
      && f1[Dimension(pf)..] == out1[Dimension(pf)..]
  {
  }

  /**
   * The step features are sums of absolute differences and the maximum starts
   * from 0. Only on an odd-width board is position width-2 not a step feature:
   * it keeps the buffer's old value.
   */
  lemma {:induction false} Nonnegative(h: seq<int>, nFull: int, out: seq<int>)
    requires 2 <= |h| && |h| + 2 <= |out|
    ensures forall i :: |h| / 2 <= i < |h| ==> Features(h, nFull, out)[i] >= 0 || (|h| % 2 == 1 && i == |h| - 2)
    ensures Features(h, nFull, out)[|h| + 1] >= 0
  {
  }
}

=== FILE: symmetric_mixed.dfy ===
/**
 * The symmetric Bertsekas features followed by three board metrics: column
 * transitions, row transitions and the well sum.
 */
module SymmetricMixed {
  import opened Seqs
  import opened Playfields
  import opened BoardMetrics
  import SymmetricBertsekas

  /** Three more features than the symmetric Bertsekas set. */
  function Dimension(pf: Playfield): int {
    SymmetricBertsekas.Dimension(pf) + 3
  }

  /** The symmetric Bertsekas vector followed by the three metrics, wells being the well-sum entry. */
  function Mixed(pf: Playfield, output: seq<int>, wells: int): seq<int>
    requires |pf.heightOf| == |pf.columns| == pf.width && 2 <= pf.width && Dimension(pf) <= |output|
  {
    var width := pf.width;
    SymmetricBertsekas.Features(pf.heightOf, pf.nFull, output)
      [width + 2 := ColTrans(pf.columns)]
      [width + 3 := RowTrans(pf.columns)]
      [width + 4 := wells]
  }

  /**
   * `extract` as written: the symmetric Bertsekas vector in the first width+2
   * positions, then column transitions, row transitions and `wellsum` with its
   * right-wall term as the code computes it. Nothing past position width+4 is
   * touched.
   */
  function Extract(pf: Playfield, output: seq<int>): (r: seq<int>)
    requires |pf.heightOf| == |pf.columns| == pf.width && 2 <= pf.width && Dimension(pf) <= |output|
    ensures |r| == |output|
    ensures var width := pf.width;
      && r[..width + 2] == SymmetricBertsekas.Features(pf.heightOf, pf.nFull, output)[..width + 2]
      && r[width + 2] == ColTrans(pf.columns)
      && r[width + 3] == RowTrans(pf.columns)
      && r[width + 4] == WellSumAsWritten(pf.heightOf)
      && r[width + 5..] == output[width + 5..]
  {
    Mixed(pf, output, WellSumAsWritten(pf.heightOf))
  }

  /** The features as evidently intended: as `Extract`, with the corrected well sum. */
  function ExtractIntended(pf: Playfield, output: seq<int>): (r: seq<int>)
    requires |pf.heightOf| == |pf.columns| == pf.width && 2 <= pf.width && Dimension(pf) <= |output|
    ensures |r| == |output|
    ensures var width := pf.width;
      && r[..width + 2] == SymmetricBertsekas.Features(pf.heightOf, pf.nFull, output)[..width + 2]
      && r[width + 2] == ColTrans(pf.columns)
      && r[width + 3] == RowTrans(pf.columns)
      && r[width + 4] == WellSum(pf.heightOf)
      && r[width + 5..] == output[width + 5..]
  {
    Mixed(pf, output, WellSum(pf.heightOf))
  }

  /** On an even-width board, the mirror image of a board has the same intended features. */
  lemma {:induction false} IntendedMirrorInvariant(pf: Playfield, output: seq<int>)
    requires Valid(pf) && 2 <= pf.width && pf.width % 2 == 0 && Dimension(pf) <= |output|
    ensures ExtractIntended(Mirror(pf), output) == ExtractIntended(pf, output)
  {
    MirrorValid(pf);
    SymmetricBertsekas.MirrorInvariant(pf.heightOf, pf.nFull, output);
    ColumnMetricsMirror(pf.columns);
    RowTransMirror(pf.columns);
    WellSumMirror(pf.heightOf);
  }

  /**
   * Every position below the dimension is written on an even-width board; on
   * an odd-width board position width-2 keeps the buffer's old content, and no
   * position from the dimension on is ever written.
   */
  lemma {:induction false} Coverage(pf: Playfield, out1: seq<int>, out2: seq<int>)
    requires |pf.heightOf| == |pf.columns| == pf.width && 2 <= pf.width
    requires Dimension(pf) <= |out1| && |out1| == |out2|
    ensures var f1 := Extract(pf, out1);
      var f2 := Extract(pf, out2);
      && (pf.width % 2 == 0 ==> f1[..Dimension(pf)] == f2[..Dimension(pf)])
      && (pf.width % 2 == 1 ==> f1[pf.width - 2] == out1[pf.width - 2])
      && f1[Dimension(pf)..] == out1[Dimension(pf)..]
  {
    var width := pf.width;
    SymmetricBertsekas.Coverage(pf, out1, out2);
    var f1 := Extract(pf, out1);
    var f2 := Extract(pf, out2);
    if width % 2 == 0 {
      forall i | 0 <= i < width + 2
        ensures f1[i] == f2[i]
      {
        assert f1[i] == f1[..width + 2][i] && f2[i] == f2[..width + 2][i];
      }
      assert f1[..Dimension(pf)] == f2[..Dimension(pf)];
    } else {
      assert f1[width - 2] == f1[..width + 2][width - 2];
    }
  }

  /**
   * As written, a two-column board with heights 0 and 3 and its mirror image get
   * different well-sum entries, 6 and 0, while the intended entries agree at 3.
   */
  lemma {:induction false} AsWrittenNotMirrorInvariant(pf: Playfield, output: seq<int>)
    requires pf.width == 2 && pf.heightOf == [0, 3] && |pf.columns| == 2 && Dimension(pf) <= |output|
    ensures Extract(pf, output)[6] == 6 && Extract(Mirror(pf), output)[6] == 0
    ensures ExtractIntended(pf, output)[6] == 3 == ExtractIntended(Mirror(pf), output)[6]
  {
    assert Reverse(pf.heightOf) == [3, 0];
    assert Wells([0, 3]) == [3, 0];
    assert Wells([3, 0]) == [0, 3];
  }
}

=== FILE: word.dfy ===
/**
 * A Java `int` as its 32 bits, least significant first: index r is row r of a
 * playfield column, index 31 is the sign bit. Java's bitwise operators act on
 * each position on its own, so they are defined position by position; shifts
 * move positions and are defined for the amounts the playfield uses (0..31).
 */
module Word32 {

  type Word = w: seq<bool> | |w| == 32 witness seq(32, _ => false)

  /** `0` */
  function Zero(): Word { seq(32, _ => false) }

  /** `~0` */
  function AllOnes(): Word { seq(32, _ => true) }

  /** `1` */
  function One(): Word { seq(32, r => r == 0) }

  function And(a: Word, b: Word): Word { seq(32, r requires 0 <= r < 32 => a[r] && b[r]) }

  function Or(a: Word, b: Word): Word { seq(32, r requires 0 <= r < 32 => a[r] || b[r]) }

  function Xor(a: Word, b: Word): Word { seq(32, r requires 0 <= r < 32 => a[r] != b[r]) }

  /** `~a` */
  function Not(a: Word): Word { seq(32, r requires 0 <= r < 32 => !a[r]) }

  /** `a << k`: bits move up by k, zeros enter at the bottom, bits pushed past 31 are lost. */
  function Shl(a: Word, k: nat): Word
    requires k < 32
  {
    seq(32, r requires 0 <= r < 32 => k <= r && a[r - k])
  }

  /** `a >> k` (arithmetic): bits move down by k, copies of the sign bit enter at the top. */
  function Sar(a: Word, k: nat): Word
    requires k < 32
  {
    seq(32, r requires 0 <= r < 32 => if r + k < 32 then a[r + k] else a[31])
  }

  /** `(1 << i) - 1`: ones exactly in the positions below i (see LowMaskValue). */
  function LowMask(i: nat): Word
    requires i <= 31
  {
    seq(32, r => r < i)
  }

  /** `a > 0`, a signed comparison. */
  predicate Positive(a: Word) {
    !a[31] && a != Zero()
  }

  /** `Integer.bitCount(a)` */
  function BitCount(a: Word): nat {
    Count(a)
  }

  /** Number of set positions. */
  function Count(b: seq<bool>): (n: nat)
    ensures n <= |b|
  {
    if |b| == 0 then 0 else (if b[0] then 1 else 0) + Count(b[1..])
  }

  /** Index of the highest set position plus one, 0 when none is set. */
  function Height(b: seq<bool>): (h: nat)
    ensures h <= |b|
    ensures forall j :: h <= j < |b| ==> !b[j]
    ensures h > 0 ==> b[h - 1]
  {
    if |b| == 0 then 0
    else if b[|b| - 1] then |b|
    else Height(b[..|b| - 1])
  }

  /** Index of the lowest set position, |b| when none is set. */
  function HeightBelow(b: seq<bool>): (h: nat)
    ensures h <= |b|
    ensures forall j :: 0 <= j < h ==> !b[j]
    ensures h < |b| ==> b[h]
  {
    if |b| == 0 then 0
    else if b[0] then 0
    else 1 + HeightBelow(b[1..])
  }

  /** The unsigned value of a bit sequence, least significant first. */
  function Unsigned(b: seq<bool>): nat {
    if |b| == 0 then 0 else (if b[0] then 1 else 0) + 2 * Unsigned(b[1..])
  }

  /** The two's-complement value of a word. */
  function Value(a: Word): int {
    Unsigned(a) - (if a[31] then 0x1_0000_0000 else 0)
  }

  /** Java's `int` arithmetic wraps modulo 2^32 into [-2^31, 2^31). */
  function Wrap(v: int): int {
    (v + 0x8000_0000) % 0x1_0000_0000 - 0x8000_0000
  }

  function Pow2(n: nat): nat {
    if n == 0 then 1 else 2 * Pow2(n - 1)
  }

  // ---------------------------------------------------------------- counting

  lemma {:induction false} CountAppend(a: seq<bool>, b: seq<bool>)
    ensures Count(a + b) == Count(a) + Count(b)
    decreases |a|
  {
    if |a| == 0 {
      assert a + b == b;
    } else {
      assert (a + b)[1..] == a[1..] + b;
      CountAppend(a[1..], b);
    }
  }

  lemma {:induction false} CountNone(b: seq<bool>)
    requires forall j :: 0 <= j < |b| ==> !b[j]
    ensures Count(b) == 0
    decreases |b|
  {
    if |b| > 0 {
      CountNone(b[1..]);
    }
  }

  /** Counting the positions of a disjoint union adds the counts. */
  lemma {:induction false} CountDisjointUnion(a: seq<bool>, b: seq<bool>, c: seq<bool>)
    requires |a| == |b| == |c|
    requires forall j :: 0 <= j < |c| ==> c[j] == (a[j] || b[j])
    requires forall j :: 0 <= j < |c| ==> !(a[j] && b[j])
    ensures Count(c) == Count(a) + Count(b)
    decreases |c|
  {
    if |c| > 0 {
      CountDisjointUnion(a[1..], b[1..], c[1..]);
    }
  }

  /** Shifting up loses no set bit when the word has room above its height. */
  lemma {:induction false} ShlKeepsCount(a: Word, k: nat)
    requires k < 32 && Height(a) + k <= 32
    ensures Count(Shl(a, k)) == Count(a)
    ensures Height(Shl(a, k)) == if Height(a) == 0 then 0 else Height(a) + k
  {
    var zeros := seq(k, _ => false);
    assert Shl(a, k) == zeros + a[..32 - k];
    CountAppend(zeros, a[..32 - k]);
    CountNone(zeros);
    assert a == a[..32 - k] + a[32 - k..];
    CountAppend(a[..32 - k], a[32 - k..]);
    CountNone(a[32 - k..]);
    var s := Shl(a, k);
    var h := if Height(a) == 0 then 0 else Height(a) + k;
    assert forall j :: h <= j < 32 ==> !s[j];
    if h > 0 {
      assert s[h - 1];
    }
    HeightUnique(s, h);
  }

  /** The height is the only index with nothing set above it and its predecessor set. */
  lemma {:induction false} HeightUnique(b: seq<bool>, h: nat)
    requires h <= |b|
    requires forall j :: h <= j < |b| ==> !b[j]
    requires h > 0 ==> b[h - 1]
    ensures Height(b) == h
  {
    var t := Height(b);
    assert t > 0 ==> b[t - 1];
  }

  /** Dropping a set position and padding with a clear one lowers the count by one. */
  lemma {:induction false} DropPositionCount(a: seq<bool>, i: nat)
    requires i < |a| && a[i]
    ensures Count(a[..i] + a[i + 1..] + [false]) == Count(a) - 1
  {
    assert a == a[..i] + ([a[i]] + a[i + 1..]);
    CountAppend(a[..i], [a[i]] + a[i + 1..]);
    CountAppend([a[i]], a[i + 1..]);
    CountAppend(a[..i] + a[i + 1..], [false]);
    CountAppend(a[..i], a[i + 1..]);
  }

  // ---------------------------------------------------------------- values

  lemma {:induction false} UnsignedLowOnes(n: nat, i: nat)
    requires i <= n
    ensures Unsigned(seq(n, r => r < i)) == Pow2(i) - 1
    decreases n
  {
    if n > 0 {
      var b := seq(n, r => r < i);
      if i == 0 {
        assert b[1..] == seq(n - 1, r => r < 0);
        UnsignedLowOnes(n - 1, 0);
      } else {
        assert b[1..] == seq(n - 1, r => r < i - 1);
        UnsignedLowOnes(n - 1, i - 1);
      }
    }
  }

  lemma {:induction false} UnsignedSingle(n: nat, i: nat)
    requires i < n
    ensures Unsigned(seq(n, r => r == i)) == Pow2(i)
    decreases n
  {
    var b := seq(n, r => r == i);
    if i == 0 {
      assert b[1..] == seq(n - 1, r => false);
      assert seq(n - 1, r => false) == seq(n - 1, r => r < 0);
      UnsignedLowOnes(n - 1, 0);
    } else {
      assert b[1..] == seq(n - 1, r => r == i - 1);
      UnsignedSingle(n - 1, i - 1);
    }
  }

  lemma {:induction false} Pow2Table()
    ensures Pow2(30) == 0x4000_0000 && Pow2(31) == 0x8000_0000
  {
    assert Pow2(1) == 2;
    assert Pow2(2) == 4;
    assert Pow2(3) == 8;
    assert Pow2(4) == 16;
    assert Pow2(5) == 32;
    assert Pow2(6) == 64;
    assert Pow2(7) == 128;
    assert Pow2(8) == 256;
    assert Pow2(9) == 512;
    assert Pow2(10) == 1024;
    assert Pow2(11) == 2048;
    assert Pow2(12) == 4096;
    assert Pow2(13) == 8192;
    assert Pow2(14) == 16384;
    assert Pow2(15) == 32768;
    assert Pow2(16) == 65536;
    assert Pow2(17) == 131072;
    assert Pow2(18) == 262144;
    assert Pow2(19) == 524288;
    assert Pow2(20) == 1048576;
    assert Pow2(21) == 2097152;
    assert Pow2(22) == 4194304;
    assert Pow2(23) == 8388608;
    assert Pow2(24) == 16777216;
    assert Pow2(25) == 33554432;
    assert Pow2(26) == 67108864;
    assert Pow2(27) == 134217728;
    assert Pow2(28) == 268435456;
    assert Pow2(29) == 536870912;
    assert Pow2(30) == 1073741824;
    assert Pow2(31) == 2147483648;
  }

  lemma {:induction false} Pow2Monotone(i: nat, j: nat)
    requires i <= j
    ensures 1 <= Pow2(i) <= Pow2(j)
    decreases j
  {
    if i < j {
      Pow2Monotone(i, j - 1);
    } else if i > 0 {
      Pow2Monotone(i - 1, i - 1);
    }
  }

  lemma {:induction false} Pow2Bounds(i: nat)
    requires i <= 31
    ensures 1 <= Pow2(i) <= 0x8000_0000
    ensures i < 31 ==> Pow2(i) <= 0x4000_0000
    ensures i == 31 ==> Pow2(i) == 0x8000_0000
  {
    Pow2Table();
    if i < 31 {
      Pow2Monotone(i, 30);
    }
  }

  /** LowMask(i) is the word Java computes for `(1 << i) - 1`, wrap-around included. */
  lemma {:induction false} LowMaskValue(i: nat)
    requires i <= 31
    ensures Value(LowMask(i)) == Wrap(Value(Shl(One(), i)) - 1)
  {
    assert LowMask(i) == seq(32, r => r < i);
    UnsignedLowOnes(32, i);
    assert Shl(One(), i) == seq(32, r => r == i);
    UnsignedSingle(32, i);
    Pow2Bounds(i);
  }

  // ---------------------------------------------------------------- walking a mask

  /** After k arithmetic shifts by one of a word whose sign bit is clear: the unread bits moved down, zeros above. */
  lemma {:induction false} ShiftStep(a: Word, k: nat, shifted: Word)
    requires k < 32 && shifted == a[k..] + seq(k, _ => false) && !shifted[31]
    ensures Sar(shifted, 1) == a[k + 1..] + seq(k + 1, _ => false)
  {
    var s := Sar(shifted, 1);
    var t := a[k + 1..] + seq(k + 1, _ => false);
    forall j | 0 <= j < 32
      ensures s[j] == t[j]
    {
      if j + 1 < 32 {
        assert s[j] == shifted[j + 1];
      }
    }
  }

  /** While the shifted word is still positive there is an unread set bit below the sign bit. */
  lemma {:induction false} MaskStillPositive(a: Word, k: nat, shifted: Word)
    requires k <= 31 && (k > 0 ==> !a[31])
    requires shifted == a[k..] + seq(k, _ => false) && Positive(shifted)
    ensures k < 31 && !a[31]
  {
  }

  /** `(a & 1) == 1` tests the lowest bit. */
  lemma {:induction false} LowestBit(a: Word)
    ensures And(a, One()) == One() <==> a[0]
  {
    if a[0] {
      assert And(a, One()) == One();
    } else {
      assert And(a, One())[0] != One()[0];
    }
  }
}

=== FILE: wrappers.dfy ===
/** Failure-carrying results used where the Java code throws or prints an error and returns. */
module Wrappers {

  datatype Option<+T> = None | Some(value: T)

  datatype Result<+R, +E> = Success(value: R) | Failure(error: E)
}
